=== FILE: README.md ===
# CWL dashboard — a Dafny model

A model of a small Clan War League dashboard for a Clash of Clans clan.

**The Node.js server** (`server.js`):
- proxies the game API;
- builds a town-hall histogram of every clan's frozen league roster, cached for an hour in a process-wide cache;
- reconciles each frozen roster against the clan's live member list to report the players who left;
- turns upstream failures into HTTP responses:
  - the league routes (`/api/cwl`, `/api/cwl/group`, `/api/cwl/war/:index`) answer an upstream 404 with 404 "not found" and anything else with 500 and the error message;
  - the war-log route answers 403 with `{ private: true }`, 404 with 404 "Clan nicht gefunden." and anything else with 500;
  - `/api/clan/:tag` answers every failure, 404 included, with 500, and `/api/cwl/missing` answers every failure with 500.

**The browser client** (`public/script.js`):
- caches every API answer in `localStorage` for an hour, in a `{ data, ts }` envelope;
- tallies the missing players per clan and town-hall level for the overview grid;
- builds a navigation bar with our own clan first;
- routes on the URL hash;
- shows each clan's roster sorted by town-hall level;
- compares the top 15 ranks against our own top 15 in five severity bands;
- renders the last five wars of the clan's war log, with the viewed clan at home and a war size estimated from the stars.

**How the model is built:**
- Pure logic is written as functions with contracts, proved properties as lemmas.
- Loops that fill a result are methods proved against those functions:
  - the histogram loops;
  - the reconciliation loops;
  - the missing-player tally;
  - the 15-rank comparison.
- The two caches are classes whose methods update their store in place:
  - `ServerCache.ApiCache`, the process-wide cache;
  - `ClientCache.Browser`, holding `localStorage` and the `cwlGroupCache` global.
- Upstream calls, `fetch` and the clock are parameters:
  - a single call is the `Result` it resolves to;
  - a call that depends on an earlier answer is a function from the tag to a `Result`;
  - the time is `now`, in milliseconds.

Two facts about the code that are easy to assume otherwise:
- The histogram has no fixed 18 zero-filled buckets. A bucket exists only when some member falls in it, a clan appears in a bucket only with a count of at least 1, and levels above 17 get their own bucket.
- Equal town-hall levels keep their roster order. `Array.prototype.sort` is stable, so the sort is modelled as a stable insertion sort, and its stability is proved.

## Model

| member | source | states |
|---|---|---|
| Text.NatToString | server.js:42 | a level's decimal text is non-empty, all digits, and starts with '0' only for 0 |
| Text.ParseNatToString | server.js:42 | reading a level's decimal text gives the level back |
| Text.NatToStringInjective | server.js:42 | two levels have the same text only when they are equal |
| Text.CanonicalDecimal | server.js:42 | a digit string without a leading zero is the decimal text of the number it denotes, so no other text reads as that number |
| Text.IntToString | public/script.js:176 | `toString` of an integer starts with '-' exactly for negatives and is "0" exactly for 0; its digits read back as the absolute value of the integer, with no leading zero |
| Text.StripFirstHash | public/script.js:87 | `replace("#", "")` leaves a tag without '#' unchanged and otherwise removes one character |
| Text.StripFirstHashAt | public/script.js:87 | the character removed is the first '#', everything before and after it is kept |
| Text.StripLeadingHash | public/script.js:471 | a tag written with a leading '#' compares equal to the same tag without it |
| League.RosterOf | server.js:38 | `members` that is an array is the roster; anything else is an empty roster |
| League.FindIndex | public/script.js:86-88 | `find` stops at the first clan whose tag without '#' matches; no index exactly when no clan matches |
| League.FindByTag | public/script.js:301-303 | the clan found is the clan at the first index whose tag matches; nothing is found exactly when no clan matches |
| Routes.LeagueFailure | server.js:49-57 | a league route answers 404 with its not-found message exactly for an upstream 404, otherwise 500 "Serverfehler" with the error message |
| Routes.ClanFailure | server.js:102-106 | the clan route answers every failure, 404 included, with 500 "Fehler beim Laden des Clans" and the message |
| Routes.WarlogFailure | server.js:114-122 | the war-log route answers 200 `{ private: true }` exactly for 403, 404 "Clan nicht gefunden." exactly for 404, and 500 otherwise |
| Routes.GroupRoute | server.js:60-74 | the league group is passed through unchanged on success; a failure is answered as a league failure |
| Routes.ClanRoute | server.js:97-107 | status 200 exactly when the upstream call succeeded, with its data; otherwise 500 with "Fehler beim Laden des Clans" and the error message as details |
| Routes.WarlogRoute | server.js:109-123 | the log is passed through on success; a private log exactly for an upstream 403 |
| Routes.RoundAt | server.js:78-81 | rounds are numbered from 1: index k selects `rounds[k-1]`; an index that is missing or out of range selects nothing |
| Routes.WarRoute | server.js:76-95 | 200 with the war exactly when the group fetch succeeds, the round exists and the war fetch succeeds; a missing round is a 500 (TypeError); a failed war fetch is answered as a league failure (404 "Kriegstag nicht gefunden oder Clan-Tag falsch." for an upstream 404, 500 otherwise) |
| Tally.Bump | server.js:43-44 | one increment raises the (a, b) counter by 1, creates the outer key, keeps every other counter and keeps all counters at least 1 |
| Tally.GetBumpAll | server.js:39-45 | after the increments every counter is raised by the number of times its pair occurs |
| Tally.WellFormedBumpAll | server.js:43-44 | increments never create an empty or zero counter |
| Tally.FromEmpty | server.js:43-44 | starting from `{}`, a counter exists exactly when its pair occurred |
| Tally.OuterKeys | server.js:43 | starting from `{}`, an outer key exists exactly when some increment used it |
| Tally.TotalBump | server.js:44 | one increment raises the sum of all counters by exactly 1 |
| Tally.TotalBumpAll | server.js:39-45 | the sum of all counters rises by the number of increments |
| Tally.BumpAllAppend | server.js:36-46 | applying two runs of increments one after the other is applying their concatenation |
| Tally.InnerTotalBumpAll | public/script.js:174-178 | one outer key's counters rise by the number of increments under that key |
| Histogram.BucketOf | server.js:40-42 | the bucket is "Unknown" exactly for a missing level or one below 1, and otherwise the level's decimal text: digits without a leading zero that read back as the level |
| Histogram.BucketsSeparateLevels | server.js:40-42 | two valid levels share a bucket only when they are equal |
| Histogram.BuildHistogram | server.js:34-46 | the nested loops compute exactly the fold of all (bucket, clan name) increments, clan by clan and member by member |
| Histogram.AddRoster | server.js:39-45 | the per-member loop applies one (bucket, clan name) increment per member of the roster, in roster order |
| Histogram.HistogramConserves | server.js:35-46 | all counts add up to the number of frozen members of clans whose `members` is an array |
| Histogram.MemberPairsCount | server.js:38-45 | a roster contributes to (bucket, name) as many increments as it has members in the bucket, and none to other names |
| Histogram.HistogramAppendClan | server.js:36-45 | a further clan adds its members per bucket to the counter of its name; clans with the same name share a counter |
| Histogram.GroupPairsHas | server.js:36-45 | a (bucket, name) increment occurs exactly when some clan of that name has a member in that bucket |
| Histogram.HistogramEntries | server.js:43-44 | a (bucket, clan) entry exists exactly when a member of that clan is in that bucket, with the number of such increments as its count |
| Histogram.HistogramBuckets | server.js:43 | a bucket exists exactly when some clan has a member in it |
| Histogram.TwoClanExample | server.js:34-46 | clan A with levels 15 and 10 and clan B with 12 give {"15": {A: 1}, "10": {A: 1}, "12": {B: 1}} |
| Reconcile.ThLabelOf | server.js:151 | the reported level is "?" exactly when the level is missing or 0 |
| Reconcile.LiveTags | server.js:141-143 | the live tags are the member list's tags in order, or none when there is no member-list array |
| Reconcile.ReconcileClans | server.js:134-155 | the loops compute the reconciliation: clans in group order, absent members in roster order, the first failed fetch aborting |
| Reconcile.FailureSticks | server.js:135-140 | once a clan's fetch has failed, the reconciliation ends with that failure |
| Reconcile.MissingRoute | server.js:125-162 | `{ missing }` when every fetch succeeds; 500 "Fehler beim Vergleich" with the message when the group or any clan fetch fails |
| Reconcile.MissingInExactly | server.js:145-153 | a clan reports exactly its frozen members whose tag is not live (set difference) |
| Reconcile.MissingInAppend | server.js:145-154 | the entries of a roster are those of its parts in roster order |
| Reconcile.AllPresentNoneMissing | server.js:145-146 | a clan whose frozen tags are all live reports nothing |
| Reconcile.NoLiveListAllMissing | server.js:141-143 | a clan without a live member list reports its whole frozen roster, in order |
| Reconcile.ReconciledAppend | server.js:135-155 | a further clan's entries follow those of the clans before it |
| Reconcile.ReconciledFailsAtFirst | server.js:138-140 | the error reported is that of the first clan, in group order, whose fetch fails |
| Reconcile.AllFetchedSucceeds | server.js:135-155 | when every clan's fetch succeeds the reconciliation succeeds |
| Reconcile.OneLeaverExample | server.js:145-153 | frozen #P1, #P2, #P3 against live #P1, #P3 reports only #P2 |
| ServerCache.Fresh | server.js:25 | a key is read back with its value while its expiry time has not passed, and reads as absent otherwise |
| ServerCache.StoredThenRead | server.js:7 | a value stored at t is read back unchanged through t + ttl and is gone afterwards |
| ServerCache.StoreIsolated | server.js:47 | storing one key leaves the reads of every other key unchanged |
| ServerCache.ApiCache.constructor | server.js:7 | the cache starts empty with a time-to-live of `StdTtlSeconds` = 3600 seconds, in milliseconds |
| ServerCache.ApiCache.Get | server.js:25 | `get` reads without changing the cache |
| ServerCache.ApiCache.Set | server.js:47 | `set` stores the value under the key until now + ttl and changes nothing else |
| ServerCache.ApiCache.CwlRoute | server.js:23-58 | a fresh cached table is returned unchanged without fetching; otherwise the histogram of the fetched group is stored and returned; a failed fetch stores nothing |
| ServerCache.RepeatedRequest | server.js:24-28 | a second request within the time-to-live gets the first request's table whatever upstream would now answer |
| ClientCache.ReadCache | public/script.js:17-25 | `getCache` returns the stored data exactly when the key holds a parseable envelope strictly younger than the maximum age |
| ClientCache.SetThenGet | public/script.js:13-25 | data stored at t is read back unchanged exactly while now - t is below the maximum age |
| ClientCache.SetIsolated | public/script.js:13-15 | storing one key leaves every other key's reads unchanged |
| ClientCache.FalsyNeverServed | public/script.js:31-32 | a falsy value is stored but never served, so the next call fetches again |
| ClientCache.ReadMonotone | public/script.js:22 | an envelope served at some time is served at every earlier time since it was written |
| ClientCache.KeysDistinct | public/script.js:29 | the five cache keys never collide, and a prefixed key determines its tag |
| ClientCache.Browser.constructor | public/script.js:8 | a page load keeps the stored items and starts with `cwlGroupCache` null |
| ClientCache.Browser.SetCache | public/script.js:13-15 | `setCache` stores the envelope `{ data, ts: now }` under the key and changes nothing else |
| ClientCache.Browser.GetCache | public/script.js:17-25 | `getCache` reads the store without changing it |
| ClientCache.Browser.CacheThrough | public/script.js:28-37 | a truthy cached value is returned without fetching; otherwise the fetched value is stored and returned; a failed fetch stores nothing |
| ClientCache.Browser.GetCwlGroupInfo | public/script.js:28-37 | cache-through for the league group under "cwlGroupCache" for one hour |
| ClientCache.Browser.GetClanInfo | public/script.js:39-48 | cache-through for a clan profile under "clanInfo_" + tag for one hour |
| ClientCache.Browser.GetClanWarlog | public/script.js:50-59 | cache-through for a war log under "clanWarlog_" + tag for one hour |
| ClientCache.Browser.GetMissingPlayers | public/script.js:62-71 | cache-through for the missing list under "cwlMissingCache" for one hour |
| ClientCache.Browser.FetchCwlData | public/script.js:135-153 | cache-through for the overview table under "cwlOverviewCache"; a failed fetch gives no data and stores nothing |
| ClientCache.Browser.LoadGroup | public/script.js:84 | the `cwlGroupCache` global takes the group when it loads and keeps its value when loading fails; the store is unchanged on a hit, gains the fetched envelope on a successful miss and is unchanged on a failed one |
| ClientCache.Browser.EnsureGroup | public/script.js:289 | a truthy global is used without touching the store; otherwise the group is loaded into it: the stored group unchanged on a hit, the fetched group stored on a successful miss |
| ClientCache.FetchedOnceThenServed | public/script.js:39-48 | two calls within the hour return the first call's truthy value without a second fetch |
| MissingTally.GridRows | public/script.js:3-6 | the grid has 18 rows: "Unknown", then "1" to "17" |
| MissingTally.TallyKeyAsWritten | public/script.js:176 | as written, the key is "?" exactly for an entry with "?" and "Unknown" only for a falsy number |
| MissingTally.TallyKey | public/script.js:176 | corrected, the key is "Unknown" exactly for a missing or zero level, and otherwise the level's text |
| MissingTally.TallyWith | public/script.js:170-179 | for a given key function, the loop computes the fold of the (clan, key) increments of the missing list; no `missing` array leaves the map empty |
| MissingTally.BuildMissingMap | public/script.js:170-179 | as written: the tally is the fold with `TallyKeyAsWritten`, so a "?" entry is counted under "?" |
| MissingTally.BuildMissingMapCorrected | public/script.js:170-179 | corrected: the tally is the fold with `TallyKey`, so a "?" entry is counted under "Unknown" |
| MissingTally.OneLevellessLeaver | public/script.js:170-179 | one leaver of clan A without a level gives A -> {"?": 1} as written and A -> {"Unknown": 1} corrected |
| MissingTally.MissingMapConserves | public/script.js:173-178 | with either key, all counts add up to the number of missing entries, and each clan's counts to that clan's entries |
| MissingTally.MissingMapEntries | public/script.js:175-177 | a (clan, key) counter exists exactly when some entry gives that pair, with its number of occurrences as count |
| MissingTally.AsWrittenHidesUnknownLevel | public/script.js:176 | as written, a member without a level is counted under "?", which no grid row reads, while the histogram counts them under "Unknown" |
| MissingTally.TallyKeyIsBucket | public/script.js:176 | corrected, the tally key of every non-negative or missing level is the histogram bucket of that level |
| MissingTally.TallyKeyInGrid | public/script.js:188-194 | corrected, a missing member without a level or with level 1 to 17 is counted on the grid row of that level |
| Compare.Insert | public/script.js:296-298 | inserting adds exactly the one member to the roster, at the front or behind the first member |
| Compare.InsertSorted | public/script.js:296-298 | inserting into a roster in descending order keeps it in descending order |
| Compare.SortDesc | public/script.js:296-298 | the sorted roster is in descending town-hall order (missing as 0) and a permutation of the roster |
| Compare.SortIsStable | public/script.js:296-298 | members with the same level appear in the sorted roster in their roster order |
| Compare.TopOf | public/script.js:378-382 | the opponent top is at most 15 members: min(15, roster size) for an array and none otherwise; it is sorted and drawn from the roster |
| Compare.TopIsHighest | public/script.js:378-382 | the sorted roster splits into the top 15 and the rest, and no member of the rest has a higher level than any member kept |
| Compare.BandOf | public/script.js:406-425 | the band is worst for a diff of 3 or more, then 2, 1, even for 0, and favourable for -1 or less |
| Compare.DiffLabel | public/script.js:434-436 | the diff label starts with '+' exactly for a positive diff, '-' exactly for a negative one, and is "0" for 0; a positive diff is '+' then its text, any other diff is exactly the integer's text |
| Compare.RowAt | public/script.js:398-439 | row i is rank i+1 with both levels (0 for a missing rank), diff = opponent - own, its band and its label |
| Compare.CompareRanks | public/script.js:398-439 | exactly 15 rows, and row i is `RowAt` of i for every rank |
| Compare.ClanDetail | public/script.js:285-372 | "Clan nicht gefunden." exactly when no clan has the tag; otherwise the clan's sorted roster, 15 ranks against our top 15 (row i is `RowAt` of our top 15 and the clan's top 15), and the tag without '#' for its war log |
| Compare.NoOpponentRoster | public/script.js:378-382 | against a clan without a roster array, every diff is minus our own level |
| Warlog.Max | public/script.js:503 | the larger of the two star counts |
| Warlog.WarSize | public/script.js:503-504 | the war size is a multiple of 5, at least a third of the higher star count and less than that plus 5, and 0 only without stars |
| Warlog.WarSizeLeast | public/script.js:503-504 | no smaller multiple of 5 reaches a third of the higher star count |
| Warlog.WarSizeExamples | public/script.js:503-504 | 45 and 30 stars give 15, 20 and 10 give 10, no stars give 0 |
| Warlog.HomeAway | public/script.js:468-473 | home and away are the item's two sides, with the viewed clan's side at home when its tag matches, swapped otherwise |
| Warlog.IconOf | public/script.js:490-495 | trophy exactly for "win", skull exactly for "lose", handshake otherwise |
| Warlog.CardOf | public/script.js:466-504 | a card shows home and away names and stars ("-" and 0 for a missing side), the war size, the icon and which side is highlighted |
| Warlog.WarlogView | public/script.js:452-535 | a failure shows the load error; a private log shows "Kriegslog Privat"; a non-empty item array shows the cards of its first 5 items in order; anything else shows "Kein Kriegslog gefunden." |
| Warlog.WarSizeSameForBothSides | public/script.js:503-504 | the war size does not depend on which side is home |
| Warlog.OwnClanAtHome | public/script.js:468-473 | viewing the item's own clan puts it at home, whether the tag is written with or without '#' |
| Warlog.ServerToView | server.js:114-121 | an upstream 403 shows "Kriegslog Privat"; any other failure shows "Kein Kriegslog gefunden."; a log is shown as it came |
| Nav.Others | public/script.js:92-93 | the other clans are clans of the group without our tag |
| Nav.Owns | public/script.js:86-88 | our clans are the clans of the group with our tag |
| Nav.NavItems | public/script.js:80-101 | the overview link first; on a failure the error marker after it; otherwise one link per clan in navigation order |
| Nav.OwnClanFirst | public/script.js:86-91 | when our clan is in the group, the first clan link leads to our tag with our clan's name |
| Nav.OwnTagLinkedOnce | public/script.js:86-98 | only the first clan link, and only when our clan is in the group, leads to our tag |
| Nav.NoOwnClanKeepsOrder | public/script.js:92-98 | without our clan the links follow the group order |
| Nav.OthersAppend | public/script.js:92-93 | filtering keeps group order |
| Nav.Partition | public/script.js:86-93 | every clan is either ours or another |
| Nav.FindIsFirstOwn | public/script.js:86-88 | `find` returns the first of our clans, and nothing exactly when there is none |
| Nav.EveryClanLinkedOnce | public/script.js:86-98 | with at most one clan carrying our tag, every clan of the group gets exactly one link |
| Nav.UpToSlash | public/script.js:109 | the segment before the first '/' is a prefix of the text without '/' |
| Nav.Route | public/script.js:104-111 | an empty hash or "#overview" shows the overview; "#clan/..." shows the clan named by the segment after it; other hashes change nothing |
| Nav.LinkOpensClan | public/script.js:94-97 | following a clan link routes to that clan's tag and finds a clan of the group |

## Left out

- HTTP wiring is left out: Express, axios, `fetch`, CORS, static files, `dotenv`, `listen` and URL and percent-encoding (`encodeURIComponent`). Upstream answers are parameters of the model.
- The DOM and HTML markup are left out: `innerHTML`, the colour gradient `getColorByValue`, `toFixed`, the member-count labels and the "Total" row of the overview grid. Only what each view shows is modelled, as values.
- Only the caching part of `fetchCWLData` is modelled: the data is returned or the failure reported. `updateTable`'s collection of clan names and its cell formatting are left out. So is the failure of `renderMissingPlayers`, which calls `getMissingPlayers` outside any `try`.
- In the browser, a failed `fetched` stands for a rejected `fetch` or `res.json()`. The wrappers (public/script.js:28-71) never check `res.ok`, so a server error reply (the 404 or 500 JSON) counts as a successful fetch: `CacheThrough` stores it and serves it for an hour like any other data.
- `JSON.stringify` and `JSON.parse` are left out. The browser store holds the parsed envelope, or a marker for text that does not parse as one.
- ServerCache.ApiCache.Get: the node-cache library is not part of this model. Expiry is modelled as "valid while now is at most the time stored plus the time-to-live", expired entries are read as absent without being deleted, and the copying of stored values is not modelled.
- Numbers are integers. Town-hall levels and star counts that are fractions, `NaN` or `undefined` are not modelled. A missing `stars` field on a present side is not modelled either (JavaScript would give a `NaN` war size).
- Warlog.WarSize: computed exactly on naturals as 5 · ⌈max / 15⌉. The source computes it with floating-point division and `Math.ceil`; the two agree for integer star counts.
- Compare.BandOf: the default black band of the source is left out, because it can only be reached by a non-integer diff.
- Concurrency is left out: interleaved requests to the server, and interleaved `async` calls in the browser.
- Thrown TypeErrors are not modelled beyond the missing round of `/api/cwl/war/:index`, which is a 500. Such errors come from a league group whose `clans` is not an array, or from a `null` JSON body. In the browser a failed group load is a failure `Result`.
- ClientCache.Browser.EnsureGroup: the global's later use as `cwlGroupCache.clans` is modelled by `Compare.ClanDetail` taking the clans directly.
- Histogram.HistogramConserves, MissingTally.MissingMapConserves: both hold for clan names that are ordinary object keys. The source counts into plain objects (server.js:43-44, public/script.js:175-177), so a clan named after an inherited property misbehaves there: "constructor" or "toString" starts from a function and its count becomes a string, and "__proto__" loses the count (and in the browser writes onto `Object.prototype`). The model uses maps with no inherited keys, so it does not capture this.
- ClientCache.Browser.CacheThrough: the envelope is stamped with the `now` at which the cache was read. The source takes `Date.now()` again after the awaited fetch (public/script.js:14, 35), and node-cache takes its own clock at `apiCache.set` (server.js:47). So a modelled entry expires no later than the source's, and the proved read properties hold for the source's later stamp as well.
- Warlog.WarlogView: the destruction percentages and the member-count labels of a card are left out; they are formatting only.

## Findings

| source | as written | input that shows it | evidently intended | confidence | as-written member | corrected member |
|---|---|---|---|---|---|---|
| public/script.js:176 | the missing tally keys an entry by `m.th ? m.th.toString() : "Unknown"`, but the server has already replaced a missing level by the truthy string "?" (server.js:151) | a frozen member without `townHallLevel` who left the clan: counted under "?", which no grid row reads, so the "Unknown" row never shows "(-1)" although the histogram counts that member under "Unknown" | count a member without a level under "Unknown", the grid row that counts them in the histogram | medium; not executed | MissingTally.AsWrittenHidesUnknownLevel | MissingTally.TallyKeyIsBucket |

=== FILE: client_cache.dfy ===
/** The browser's time-boxed cache (public/script.js): `localStorage` holds,
    per key, the JSON text of an envelope `{ data, ts }`; a read serves `data`
    while the envelope is younger than the caller's maximum age. The store is
    a map from key to the parsed envelope (or to text that does not parse as
    one), the clock `now` is a parameter in milliseconds, and an upstream
    fetch is the value it would resolve to. */
module ClientCache {
  import opened Wrappers

  /** A JSON value as JavaScript sees it after `res.json()` or `JSON.parse`. */
  datatype Json =
    | JNull
    | JBool(b: bool)
    | JNumber(n: int)
    | JString(s: string)
    | JArray(elems: seq<Json>)
    | JObject(fields: map<string, Json>)

  /** JavaScript truthiness: `null`, `false`, `0` and `""` are falsy; arrays
      and objects, even empty ones, are truthy. */
  predicate Truthy(j: Json) {
    match j
    case JNull => false
    case JBool(b) => b
    case JNumber(n) => n != 0
    case JString(s) => s != ""
    case JArray(_) => true
    case JObject(_) => true
  }

  /** What `localStorage` holds under a key, once parsed. */
  datatype Stored = Envelope(data: Json, ts: int) | Malformed

  /** `60 * 60 * 1000`: every wrapper keeps data for one hour. */
  const MaxAgeMs: int := 60 * 60 * 1000

  const CwlGroupKey := "cwlGroupCache"
  const MissingKey := "cwlMissingCache"
  const OverviewKey := "cwlOverviewCache"

  function ClanInfoKey(clanTag: string): string {
    "clanInfo_" + clanTag
  }

  function ClanWarlogKey(clanTag: string): string {
    "clanWarlog_" + clanTag
  }

  /** `getCache(key, maxAgeMs)` at time `now`: the stored data when the key
      holds a well-formed envelope strictly younger than `maxAge`, otherwise
      nothing (null). A malformed envelope is not an error. */
  function ReadCache(items: map<string, Stored>, key: string, maxAge: int, now: int): (r: Option<Json>)
    ensures r.Some? <==> key in items && items[key].Envelope? && now - items[key].ts < maxAge
    ensures r.Some? ==> r.value == items[key].data
  {
    if key in items && items[key].Envelope? && now - items[key].ts < maxAge then Some(items[key].data)
    else None
  }

  /** A cache-through wrapper uses the cached value only when it is truthy. */
  predicate Hit(items: map<string, Stored>, key: string, maxAge: int, now: int) {
    var c := ReadCache(items, key, maxAge, now);
    c.Some? && Truthy(c.value)
  }

  /** `setCache(k, d)` at `t`, then `getCache(k, m)` at `t'`: `d` comes back
      exactly when `t' - t < m`. */
  lemma SetThenGet(items: map<string, Stored>, key: string, d: Json, t: int, maxAge: int, now: int)
    ensures ReadCache(items[key := Envelope(d, t)], key, maxAge, now)
            == if now - t < maxAge then Some(d) else None
  {
  }

  /** Setting one key leaves every other key's reads unchanged. */
  lemma SetIsolated(items: map<string, Stored>, key: string, other: string, d: Json, t: int, maxAge: int, now: int)
    requires other != key
    ensures ReadCache(items[key := Envelope(d, t)], other, maxAge, now) == ReadCache(items, other, maxAge, now)
  {
  }

  /** A falsy fetched value is stored but never served: the next call within
      the hour fetches again. */
  lemma FalsyNeverServed(items: map<string, Stored>, key: string, d: Json, t: int, maxAge: int, now: int)
    requires !Truthy(d)
    ensures !Hit(items[key := Envelope(d, t)], key, maxAge, now)
  {
  }

  /** Reads get younger data only: if an envelope is served at `now`, it is
      served at every earlier time not before it was written. */
  lemma ReadMonotone(items: map<string, Stored>, key: string, maxAge: int, now: int, earlier: int)
    requires ReadCache(items, key, maxAge, now).Some?
    requires items[key].ts <= earlier <= now
    ensures ReadCache(items, key, maxAge, earlier) == ReadCache(items, key, maxAge, now)
  {
  }

  /** The keys of the five cached resources never collide: the fixed
      literals differ from each other and from every prefixed key, and the
      prefixed keys determine their tag. */
  lemma {:induction false} KeysDistinct(t1: string, t2: string)
    ensures ClanInfoKey(t1) != ClanWarlogKey(t2)
    ensures ClanInfoKey(t1) != CwlGroupKey && ClanInfoKey(t1) != MissingKey && ClanInfoKey(t1) != OverviewKey
    ensures ClanWarlogKey(t1) != CwlGroupKey && ClanWarlogKey(t1) != MissingKey && ClanWarlogKey(t1) != OverviewKey
    ensures CwlGroupKey != MissingKey && CwlGroupKey != OverviewKey && MissingKey != OverviewKey
    ensures ClanInfoKey(t1) == ClanInfoKey(t2) <==> t1 == t2
    ensures ClanWarlogKey(t1) == ClanWarlogKey(t2) <==> t1 == t2
  {
    assert ClanInfoKey(t1)[4] == 'I' && ClanWarlogKey(t2)[4] == 'W';
    assert ClanInfoKey(t1)[1] == 'l' && ClanWarlogKey(t1)[1] == 'l';
    assert CwlGroupKey[1] == 'w' && MissingKey[1] == 'w' && OverviewKey[1] == 'w';
    assert CwlGroupKey[3] == 'G' && MissingKey[3] == 'M' && OverviewKey[3] == 'O';
    assert ClanInfoKey(t1)[9..] == t1 && ClanInfoKey(t2)[9..] == t2;
    assert ClanWarlogKey(t1)[11..] == t1 && ClanWarlogKey(t2)[11..] == t2;
  }

  /** The browser's state: `localStorage` and the `cwlGroupCache` global. */
  class Browser {
    var items: map<string, Stored>
    var cwlGroup: Json

    /** A page load: the storage persists, the global starts as `null`. */
    constructor (stored: map<string, Stored>)
      ensures items == stored && cwlGroup == JNull
    {
      items := stored;
      cwlGroup := JNull;
    }

    /** `setCache(key, data)` at time `now` */
    method SetCache(key: string, data: Json, now: int)
      modifies this
      ensures items == old(items)[key := Envelope(data, now)]
      ensures cwlGroup == old(cwlGroup)
    {
      items := items[key := Envelope(data, now)];
    }

    /** `getCache(key, maxAgeMs)` at time `now`; the store is only read. */
    method GetCache(key: string, maxAge: int, now: int) returns (r: Option<Json>)
      ensures r == ReadCache(items, key, maxAge, now)
    {
      if key !in items {
        return None;
      }
      match items[key]
      case Malformed =>
        r := None;
      case Envelope(data, ts) =>
        if now - ts < maxAge {
          r := Some(data);
        } else {
          r := None;
        }
    }

    /** The body shared by the `get*` wrappers: a truthy cached value is
        returned without fetching; otherwise the fetched value is stored under
        `key` and returned. A failed fetch propagates and stores nothing. */
    method CacheThrough(key: string, maxAge: int, now: int, fetched: Result<Json, string>)
        returns (r: Result<Json, string>)
      modifies this
      ensures cwlGroup == old(cwlGroup)
      ensures Hit(old(items), key, maxAge, now) ==>
                r == Success(ReadCache(old(items), key, maxAge, now).value) && items == old(items)
      ensures !Hit(old(items), key, maxAge, now) ==>
                r == fetched
                && items == if fetched.Success? then old(items)[key := Envelope(fetched.value, now)]
                            else old(items)
    {
      var cached := GetCache(key, maxAge, now);
      if cached.Some? && Truthy(cached.value) {
        return Success(cached.value);
      }
      if fetched.Failure? {
        return fetched;
      }
      SetCache(key, fetched.value, now);
      r := fetched;
    }

    /** `getCWLGroupInfo()`: `/api/cwl/group` under "cwlGroupCache". */
    method GetCwlGroupInfo(now: int, fetched: Result<Json, string>) returns (r: Result<Json, string>)
      modifies this
      ensures cwlGroup == old(cwlGroup)
      ensures Hit(old(items), CwlGroupKey, MaxAgeMs, now) ==>
                r == Success(old(items)[CwlGroupKey].data) && items == old(items)
      ensures !Hit(old(items), CwlGroupKey, MaxAgeMs, now) ==>
                r == fetched
                && items == if fetched.Success? then old(items)[CwlGroupKey := Envelope(fetched.value, now)]
                            else old(items)
    {
      r := CacheThrough(CwlGroupKey, MaxAgeMs, now, fetched);
    }

    /** `getClanInfo(clanTag)`: `/api/clan/:tag` under "clanInfo_" + tag. */
    method GetClanInfo(clanTag: string, now: int, fetched: Result<Json, string>) returns (r: Result<Json, string>)
      modifies this
      ensures cwlGroup == old(cwlGroup)
      ensures Hit(old(items), ClanInfoKey(clanTag), MaxAgeMs, now) ==>
                r == Success(old(items)[ClanInfoKey(clanTag)].data) && items == old(items)
      ensures !Hit(old(items), ClanInfoKey(clanTag), MaxAgeMs, now) ==>
                r == fetched
                && items == if fetched.Success? then old(items)[ClanInfoKey(clanTag) := Envelope(fetched.value, now)]
                            else old(items)
    {
      r := CacheThrough(ClanInfoKey(clanTag), MaxAgeMs, now, fetched);
    }

    /** `getClanWarlog(clanTag)`: `/api/clan/:tag/warlog` under "clanWarlog_" + tag. */
    method GetClanWarlog(clanTag: string, now: int, fetched: Result<Json, string>) returns (r: Result<Json, string>)
      modifies this
      ensures cwlGroup == old(cwlGroup)
      ensures Hit(old(items), ClanWarlogKey(clanTag), MaxAgeMs, now) ==>
                r == Success(old(items)[ClanWarlogKey(clanTag)].data) && items == old(items)
      ensures !Hit(old(items), ClanWarlogKey(clanTag), MaxAgeMs, now) ==>
                r == fetched
                && items == if fetched.Success? then old(items)[ClanWarlogKey(clanTag) := Envelope(fetched.value, now)]
                            else old(items)
    {
      r := CacheThrough(ClanWarlogKey(clanTag), MaxAgeMs, now, fetched);
    }

    /** `getMissingPlayers()`: `/api/cwl/missing` under "cwlMissingCache". */
    method GetMissingPlayers(now: int, fetched: Result<Json, string>) returns (r: Result<Json, string>)
      modifies this
      ensures cwlGroup == old(cwlGroup)
      ensures Hit(old(items), MissingKey, MaxAgeMs, now) ==>
                r == Success(old(items)[MissingKey].data) && items == old(items)
      ensures !Hit(old(items), MissingKey, MaxAgeMs, now) ==>
                r == fetched
                && items == if fetched.Success? then old(items)[MissingKey := Envelope(fetched.value, now)]
                            else old(items)
    {
      r := CacheThrough(MissingKey, MaxAgeMs, now, fetched);
    }

    /** The caching part of `fetchCWLData()`: `/api/cwl` under
        "cwlOverviewCache"; a failure becomes the "failed to load" message
        instead of propagating. */
    method FetchCwlData(now: int, fetched: Result<Json, string>) returns (r: Option<Json>)
      modifies this
      ensures cwlGroup == old(cwlGroup)
      ensures Hit(old(items), OverviewKey, MaxAgeMs, now) ==>
                r == Some(old(items)[OverviewKey].data) && items == old(items)
      ensures !Hit(old(items), OverviewKey, MaxAgeMs, now) ==>
                (r.Some? <==> fetched.Success?)
                && (fetched.Success? ==> r.value == fetched.value)
                && items == if fetched.Success? then old(items)[OverviewKey := Envelope(fetched.value, now)]
                            else old(items)
    {
      var data := CacheThrough(OverviewKey, MaxAgeMs, now, fetched);
      r := if data.Success? then Some(data.value) else None;
    }

    /** `buildDynamicNav`'s `cwlGroupCache = await getCWLGroupInfo()`: on a
        failure the global keeps its value. */
    method LoadGroup(now: int, fetched: Result<Json, string>) returns (r: Result<Json, string>)
      modifies this
      ensures r.Success? ==> cwlGroup == r.value
      ensures r.Failure? ==> cwlGroup == old(cwlGroup)
      ensures Hit(old(items), CwlGroupKey, MaxAgeMs, now) ==> r == Success(old(items)[CwlGroupKey].data)
      ensures !Hit(old(items), CwlGroupKey, MaxAgeMs, now) ==> r == fetched
      ensures items == if Hit(old(items), CwlGroupKey, MaxAgeMs, now) then old(items)
                       else if fetched.Success? then old(items)[CwlGroupKey := Envelope(fetched.value, now)]
                       else old(items)
    {
      r := GetCwlGroupInfo(now, fetched);
      if r.Success? {
        cwlGroup := r.value;
      }
    }

    /** `renderClanDetail`'s `if (!cwlGroupCache) cwlGroupCache = await
        getCWLGroupInfo()`: a truthy global is used as it is, without
        touching the store. */
    method EnsureGroup(now: int, fetched: Result<Json, string>) returns (r: Result<Json, string>)
      modifies this
      ensures Truthy(old(cwlGroup)) ==> r == Success(old(cwlGroup)) && items == old(items) && cwlGroup == old(cwlGroup)
      ensures !Truthy(old(cwlGroup)) ==> (r.Success? ==> cwlGroup == r.value) && (r.Failure? ==> cwlGroup == old(cwlGroup))
      ensures !Truthy(old(cwlGroup)) && Hit(old(items), CwlGroupKey, MaxAgeMs, now) ==>
                r == Success(old(items)[CwlGroupKey].data) && items == old(items)
      ensures !Truthy(old(cwlGroup)) && !Hit(old(items), CwlGroupKey, MaxAgeMs, now) ==>
                r == fetched
                && items == if fetched.Success? then old(items)[CwlGroupKey := Envelope(fetched.value, now)]
                            else old(items)
    {
      if Truthy(cwlGroup) {
        return Success(cwlGroup);
      }
      r := LoadGroup(now, fetched);
    }
  }

  /** Two calls of a wrapper within the hour, the first of which fetched a
      truthy value: the second returns that value and does not fetch. */
  method FetchedOnceThenServed(b: Browser, clanTag: string, t1: int, t2: int,
                               d: Json, later: Result<Json, string>)
      returns (first: Result<Json, string>, second: Result<Json, string>)
    requires !Hit(b.items, ClanInfoKey(clanTag), MaxAgeMs, t1)
    requires Truthy(d) && t1 <= t2 < t1 + MaxAgeMs
    modifies b
    ensures first == Success(d) && second == Success(d)
  {
    first := b.GetClanInfo(clanTag, t1, Success(d));
    second := b.GetClanInfo(clanTag, t2, later);
  }
}

=== FILE: client_tally.dfy ===
/** The missing-player tally of `updateTable` (public/script.js): the
    `missing` list fetched from the server is folded into clan name ->
    town-hall key -> count, which the overview grid reads per (clan, row). */
module MissingTally {
  import opened Wrappers
  import opened Text
  import opened Tally
  import opened Reconcile
  import opened Histogram

  /** The eighteen rows of the overview grid (`allTHs`): "Unknown", then the
      levels 1 to 17. */
  function GridRows(): (rows: seq<string>)
    ensures |rows| == 18 && rows[0] == "Unknown"
    ensures forall i :: 1 <= i < 18 ==> rows[i] == NatToString(i)
  {
    ["Unknown"] + seq(17, i requires 0 <= i < 17 => NatToString(i + 1))
  }

  /** `m.th ? m.th.toString() : "Unknown"`, as written. The server sends a
      level or "?"; `Level(0)` stands for a falsy number. */
  function TallyKeyAsWritten(th: ThLabel): (k: string)
    ensures k == "Unknown" <==> th == Level(0)
    ensures k == "?" <==> th == Question
    ensures th.Level? && th.n != 0 ==> k == IntToString(th.n)
  {
    match th
    case Question => "?"
    case Level(n) =>
      if n == 0 then "Unknown"
      else
        var s := IntToString(n);
        assert s[0] == '-' || IsDigit(s[0]);
        s
  }

  /** The key the tally evidently means: a member without a level is counted
      under "Unknown", the grid row the histogram puts that member in. */
  function TallyKey(th: ThLabel): (k: string)
    ensures k == "Unknown" <==> th == Question || th == Level(0)
    ensures th.Level? && th.n != 0 ==> k == IntToString(th.n)
  {
    match th
    case Question => "Unknown"
    case Level(n) => TallyKeyAsWritten(th)
  }

  /** The (clan, key) increments of the missing list, in order, under the
      tally key `key`. */
  function TallyPairs(missing: seq<MissingEntry>, key: ThLabel -> string): seq<(string, string)>
    decreases |missing|
  {
    if missing == [] then []
    else
      var e := missing[|missing| - 1];
      TallyPairs(missing[..|missing| - 1], key) + [(e.clan, key(e.th))]
  }

  /** `missingData.missing.forEach(...)`, filling `missingMap` in place, one
      increment per entry under the key `key` gives it; a response without a
      `missing` array leaves the map empty. */
  method TallyWith(missing: Option<seq<MissingEntry>>, key: ThLabel -> string) returns (missingMap: Counts)
    ensures missing.None? ==> missingMap == map[]
    ensures missing.Some? ==> missingMap == BumpAll(map[], TallyPairs(missing.value, key))
  {
    missingMap := map[];
    if missing.None? {
      return;
    }
    var list := missing.value;
    for i := 0 to |list|
      invariant missingMap == BumpAll(map[], TallyPairs(list[..i], key))
    {
      var m := list[i];
      var th := key(m.th);
      assert list[..i + 1][..i] == list[..i];
      assert TallyPairs(list[..i + 1], key) == TallyPairs(list[..i], key) + [(m.clan, th)];
      assert (TallyPairs(list[..i], key) + [(m.clan, th)])[..i] == TallyPairs(list[..i], key) by {
        TallyPairsLength(list[..i], key);
      }
      missingMap := Bump(missingMap, m.clan, th);
    }
    assert list[..|list|] == list;
  }

  /** The tally of `updateTable` as written: keyed by `TallyKeyAsWritten`. */
  method BuildMissingMap(missing: Option<seq<MissingEntry>>) returns (missingMap: Counts)
    ensures missing.None? ==> missingMap == map[]
    ensures missing.Some? ==> missingMap == BumpAll(map[], TallyPairs(missing.value, TallyKeyAsWritten))
  {
    missingMap := TallyWith(missing, TallyKeyAsWritten);
  }

  /** The tally corrected to count a member without a level under "Unknown". */
  method BuildMissingMapCorrected(missing: Option<seq<MissingEntry>>) returns (missingMap: Counts)
    ensures missing.None? ==> missingMap == map[]
    ensures missing.Some? ==> missingMap == BumpAll(map[], TallyPairs(missing.value, TallyKey))
  {
    missingMap := TallyWith(missing, TallyKey);
  }

  lemma {:induction false} TallyPairsLength(missing: seq<MissingEntry>, key: ThLabel -> string)
    ensures |TallyPairs(missing, key)| == |missing|
    decreases |missing|
  {
    if missing != [] {
      TallyPairsLength(missing[..|missing| - 1], key);
    }
  }

  /** Number of entries of `missing` for clan `clan`. */
  function EntriesOf(missing: seq<MissingEntry>, clan: string): nat
    decreases |missing|
  {
    if missing == [] then 0
    else EntriesOf(missing[..|missing| - 1], clan) + (if missing[|missing| - 1].clan == clan then 1 else 0)
  }

  lemma {:induction false} CountOuterTally(missing: seq<MissingEntry>, key: ThLabel -> string, clan: string)
    ensures CountOuter(TallyPairs(missing, key), clan) == EntriesOf(missing, clan)
    decreases |missing|
  {
    if missing != [] {
      var n := |missing| - 1;
      CountOuterTally(missing[..n], key, clan);
      TallyPairsLength(missing[..n], key);
      assert TallyPairs(missing, key)[..|TallyPairs(missing, key)| - 1] == TallyPairs(missing[..n], key);
    }
  }

  /** Conservation, whichever key is used: all counts together equal the
      number of missing entries, and each clan's counts add up to that clan's
      entries. */
  lemma MissingMapConserves(missing: seq<MissingEntry>, key: ThLabel -> string, clan: string)
    ensures Total2(BumpAll(map[], TallyPairs(missing, key))) == |missing|
    ensures InnerTotal(BumpAll(map[], TallyPairs(missing, key)), clan) == EntriesOf(missing, clan)
  {
    TotalEmpty(map[]);
    TotalBumpAll(map[], TallyPairs(missing, key));
    TallyPairsLength(missing, key);
    InnerTotalBumpAll(map[], TallyPairs(missing, key), clan);
    CountOuterTally(missing, key, clan);
  }

  /** Each (clan, key) counter exists exactly when some entry of that clan
      has that key, with a count of at least 1. */
  lemma MissingMapEntries(missing: seq<MissingEntry>, key: ThLabel -> string, clan: string, k: string)
    ensures WellFormed(BumpAll(map[], TallyPairs(missing, key)))
    ensures (clan in BumpAll(map[], TallyPairs(missing, key)) && k in BumpAll(map[], TallyPairs(missing, key))[clan])
            <==> (clan, k) in TallyPairs(missing, key)
    ensures Get(BumpAll(map[], TallyPairs(missing, key)), clan, k) == multiset(TallyPairs(missing, key))[(clan, k)]
  {
    FromEmpty(TallyPairs(missing, key), clan, k);
    GetBumpAll(map[], TallyPairs(missing, key), clan, k);
  }

  /** One leaver of clan "A" without a level: as written the tally holds
      A -> {"?": 1}, with nothing under "Unknown"; corrected it holds
      A -> {"Unknown": 1}. */
  lemma OneLevellessLeaver()
    ensures var missing := [MissingEntry("P", "#P", "A", ThLabelOf(None))];
            && BumpAll(map[], TallyPairs(missing, TallyKeyAsWritten)) == map["A" := map["?" := 1]]
            && BumpAll(map[], TallyPairs(missing, TallyKey)) == map["A" := map["Unknown" := 1]]
  {
    var e := MissingEntry("P", "#P", "A", ThLabelOf(None));
    OneEntryTally(e, TallyKeyAsWritten);
    OneEntryTally(e, TallyKey);
  }

  /** A one-entry list tallies one count under that entry's clan and key. */
  lemma OneEntryTally(e: MissingEntry, key: ThLabel -> string)
    ensures BumpAll(map[], TallyPairs([e], key)) == map[e.clan := map[key(e.th) := 1]]
  {
    assert [e][..0] == [] && [e][0] == e;
    assert TallyPairs([e][..0], key) == [];
    var ps := TallyPairs([e], key);
    assert ps == [(e.clan, key(e.th))];
    assert ps[..0] == [];
    assert BumpAll(map[], ps) == Bump(map[], e.clan, key(e.th));
  }

  /** As written, a server-side entry is never tallied under "Unknown": a
      member without a level arrives as "?" and is counted under "?", a key
      that is not a row of the overview grid, so the grid never shows it. */
  lemma AsWrittenHidesUnknownLevel(th: Option<int>)
    ensures TallyKeyAsWritten(ThLabelOf(th)) != "Unknown"
    ensures th.None? ==> TallyKeyAsWritten(ThLabelOf(th)) == "?" && "?" !in GridRows()
    ensures th.None? ==> BucketOf(th) == "Unknown"
  {
    if th.None? {
      var rows := GridRows();
      forall i | 0 <= i < |rows|
        ensures rows[i] != "?"
      {
        if i > 0 {
          assert IsDigit(rows[i][0]);
        }
      }
    }
  }

  /** Corrected, the missing tally uses the histogram's own bucket for every
      level the game has, so each missing member is counted on the grid row
      that also counts them in the histogram. */
  lemma TallyKeyIsBucket(th: Option<int>)
    requires th.None? || th.value >= 0
    ensures TallyKey(ThLabelOf(th)) == BucketOf(th)
  {
  }

  /** Every missing member without a level, or with a level from 1 to 17, is
      counted under a row of the overview grid. */
  lemma TallyKeyInGrid(th: Option<int>)
    requires th.None? || 1 <= th.value <= 17
    ensures TallyKey(ThLabelOf(th)) in GridRows()
    ensures th.Some? ==> TallyKey(ThLabelOf(th)) == GridRows()[th.value]
    ensures th.None? ==> TallyKey(ThLabelOf(th)) == GridRows()[0]
  {
  }
}

=== FILE: compare.dfy ===
/** The clan detail view's roster comparison (public/script.js): both rosters
    sorted by descending town-hall level, cut to the top 15, paired rank by
    rank, and each rank's level difference classified into one of five bands.
    `Array.prototype.sort` is stable, so members with equal levels keep their
    roster order; the model sorts by stable insertion. */
module Compare {
  import opened Wrappers
  import opened Text
  import opened League

  const TopN: nat := 15
  const MyClanTag := "2Q2J2PPVR"

  /** `m.townHallLevel || 0` */
  function ThOrZero(m: Member): int {
    m.townHallLevel.GetOr(0)
  }

  ghost predicate SortedDesc(s: seq<Member>) {
    forall i, j :: 0 <= i < j < |s| ==> ThOrZero(s[i]) >= ThOrZero(s[j])
  }

  /** Places `x` before the first member of `t` whose level is not higher. */
  function Insert(x: Member, t: seq<Member>): (r: seq<Member>)
    ensures |r| == |t| + 1
    ensures multiset(r) == multiset(t) + multiset{x}
    ensures r[0] == x || (t != [] && r[0] == t[0])
    decreases |t|
  {
    if t == [] || ThOrZero(x) >= ThOrZero(t[0]) then [x] + t
    else
      assert t == [t[0]] + t[1..];
      [t[0]] + Insert(x, t[1..])
  }

  lemma {:induction false} InsertSorted(x: Member, t: seq<Member>)
    requires SortedDesc(t)
    ensures SortedDesc(Insert(x, t))
    decreases |t|
  {
    var r := Insert(x, t);
    if t == [] || ThOrZero(x) >= ThOrZero(t[0]) {
      assert r == [x] + t;
      forall i, j | 0 <= i < j < |r|
        ensures ThOrZero(r[i]) >= ThOrZero(r[j])
      {
        if i == 0 {
          assert r[j] == t[j - 1];
          assert ThOrZero(t[0]) >= ThOrZero(t[j - 1]);
        } else {
          assert r[i] == t[i - 1] && r[j] == t[j - 1];
        }
      }
    } else {
      var r' := Insert(x, t[1..]);
      assert r == [t[0]] + r';
      InsertSorted(x, t[1..]);
      assert ThOrZero(r'[0]) <= ThOrZero(t[0]) by {
        if r'[0] != x {
          assert r'[0] == t[1];
        }
      }
      forall i, j | 0 <= i < j < |r|
        ensures ThOrZero(r[i]) >= ThOrZero(r[j])
      {
        assert r[j] == r'[j - 1];
        if i == 0 {
          assert ThOrZero(r'[0]) >= ThOrZero(r'[j - 1]) || j - 1 == 0;
        } else {
          assert r[i] == r'[i - 1];
        }
      }
    }
  }

  /** `[...ms].sort((a, b) => (b.townHallLevel || 0) - (a.townHallLevel || 0))` */
  function SortDesc(ms: seq<Member>): (r: seq<Member>)
    ensures SortedDesc(r)
    ensures multiset(r) == multiset(ms)
    ensures |r| == |ms|
    decreases |ms|
  {
    if ms == [] then []
    else
      assert ms == [ms[0]] + ms[1..];
      InsertSorted(ms[0], SortDesc(ms[1..]));
      Insert(ms[0], SortDesc(ms[1..]))
  }

  /** The members of `s` with level `k`, in order. */
  function WithLevel(s: seq<Member>, k: int): seq<Member>
    decreases |s|
  {
    if s == [] then []
    else (if ThOrZero(s[0]) == k then [s[0]] else []) + WithLevel(s[1..], k)
  }

  lemma {:induction false} WithLevelInsert(x: Member, t: seq<Member>, k: int)
    ensures WithLevel(Insert(x, t), k) == (if ThOrZero(x) == k then [x] else []) + WithLevel(t, k)
    decreases |t|
  {
    var r := Insert(x, t);
    if t == [] || ThOrZero(x) >= ThOrZero(t[0]) {
      assert r == [x] + t;
      assert r[0] == x && r[1..] == t;
    } else {
      var r' := Insert(x, t[1..]);
      assert r == [t[0]] + r';
      assert r[0] == t[0] && r[1..] == r';
      WithLevelInsert(x, t[1..], k);
      assert WithLevel(r, k) == (if ThOrZero(t[0]) == k then [t[0]] else []) + WithLevel(r', k);
      assert WithLevel(t, k) == (if ThOrZero(t[0]) == k then [t[0]] else []) + WithLevel(t[1..], k);
    }
  }

  /** Stability: for every level, the members with that level appear in the
      sorted roster in the order they have in the roster. */
  lemma {:induction false} SortIsStable(ms: seq<Member>, k: int)
    ensures WithLevel(SortDesc(ms), k) == WithLevel(ms, k)
    decreases |ms|
  {
    if ms != [] {
      SortIsStable(ms[1..], k);
      WithLevelInsert(ms[0], SortDesc(ms[1..]), k);
    }
  }

  /** `Array.isArray(members) ? [...members].sort(...).slice(0, 15) : []` */
  function TopOf(members: MemberField): (r: seq<Member>)
    ensures |r| <= TopN
    ensures members.Roster? ==> |r| == if |members.list| < TopN then |members.list| else TopN
    ensures !members.Roster? ==> r == []
    ensures SortedDesc(r)
    ensures multiset(r) <= multiset(RosterOf(members))
  {
    var sorted := SortDesc(RosterOf(members));
    var n := if |sorted| < TopN then |sorted| else TopN;
    PrefixSplit(sorted, n);
    sorted[..n]
  }

  lemma PrefixSplit(s: seq<Member>, n: nat)
    requires n <= |s|
    ensures SortedDesc(s) ==> SortedDesc(s[..n])
    ensures multiset(s) == multiset(s[..n]) + multiset(s[n..])
  {
    assert s == s[..n] + s[n..];
  }

  /** The top 15 are the highest: the sorted roster splits into the top 15
      and the rest, and no member of the rest is higher than any member kept. */
  lemma TopIsHighest(members: MemberField, i: nat, j: nat)
    requires members.Roster? && i < TopN <= j < |members.list|
    ensures multiset(TopOf(members)) + multiset(SortDesc(members.list)[TopN..]) == multiset(members.list)
    ensures ThOrZero(SortDesc(members.list)[j]) <= ThOrZero(TopOf(members)[i])
  {
    var sorted := SortDesc(members.list);
    assert TopOf(members) == sorted[..TopN];
    PrefixSplit(sorted, TopN);
  }

  // ---- Bands --------------------------------------------------------------

  /** The five severity bands of a rank: opponent 3+ levels higher (red), 2
      (orange), 1 (yellow), even (green), opponent lower (blue). */
  datatype Band = Worst | Two | One | Even | Favorable

  function BandOf(diff: int): (b: Band)
    ensures b == Worst <==> diff >= 3
    ensures b == Two <==> diff == 2
    ensures b == One <==> diff == 1
    ensures b == Even <==> diff == 0
    ensures b == Favorable <==> diff <= -1
  {
    if diff >= 3 then Worst
    else if diff == 2 then Two
    else if diff == 1 then One
    else if diff == 0 then Even
    else Favorable
  }

  /** `${diff > 0 ? "+" : ""}${diff}` */
  function DiffLabel(diff: int): (s: string)
    ensures |s| >= 1
    ensures s[0] == '+' <==> diff > 0
    ensures s[0] == '-' <==> diff < 0
    ensures s == "0" <==> diff == 0
    ensures diff > 0 ==> s[1..] == IntToString(diff)
    ensures diff <= 0 ==> s == IntToString(diff)
  {
    var d := IntToString(diff);
    if diff > 0 then
      assert d[0] != '-';
      "+" + d
    else
      assert d[0] != '+' by {
        if diff < 0 { assert d[0] == '-'; } else { assert IsDigit(d[0]); }
      }
      d
  }

  // ---- The comparison table -----------------------------------------------

  datatype Row = Row(rank: nat, ourTh: int, oppTh: int, diff: int, band: Band, text: string)

  /** `(list[i] || {}).townHallLevel || 0`: a rank without a member counts as 0. */
  function ThAt(list: seq<Member>, i: nat): int {
    if i < |list| then ThOrZero(list[i]) else 0
  }

  /** Row `i` of the comparison: rank `i + 1`, both levels (0 for a missing
      rank), the opponent's lead, its band and its label. */
  function RowAt(ourTop: seq<Member>, oppTop: seq<Member>, i: nat): (row: Row)
    ensures row.rank == i + 1 && row.diff == row.oppTh - row.ourTh
    ensures row.ourTh == ThAt(ourTop, i) && row.oppTh == ThAt(oppTop, i)
    ensures row.band == BandOf(row.diff) && row.text == DiffLabel(row.diff)
  {
    var diff := ThAt(oppTop, i) - ThAt(ourTop, i);
    Row(i + 1, ThAt(ourTop, i), ThAt(oppTop, i), diff, BandOf(diff), DiffLabel(diff))
  }

  /** `[f(0), ..., f(n - 1)]`. */
  function Tabulate<T>(f: nat -> T, n: nat): (s: seq<T>)
    ensures |s| == n && forall i :: 0 <= i < n ==> s[i] == f(i)
  {
    if n == 0 then [] else Tabulate(f, n - 1) + [f(n - 1)]
  }

  /** The loop `for (let i = 0; i < 15; i++)` of `renderClanVsClanTable`. */
  method CompareRanks(ourTop: seq<Member>, oppTop: seq<Member>) returns (rows: seq<Row>)
    ensures |rows| == TopN
    ensures forall i :: 0 <= i < TopN ==> rows[i] == RowAt(ourTop, oppTop, i)
  {
    var row := (k: nat) => RowAt(ourTop, oppTop, k);
    rows := [];
    for i := 0 to TopN
      invariant rows == Tabulate(row, i)
    {
      rows := rows + [row(i)];
    }
  }

  /** What `renderClanDetail` shows for a clan of the group. */
  datatype Detail = Detail(name: string, roster: seq<Member>, rows: seq<Row>, warlogTag: string)

  /** Our side: the top 15 of our clan's frozen roster, none if our clan is
      not in the group. */
  function OurTop(clans: seq<GroupClan>): seq<Member> {
    match FindByTag(clans, MyClanTag)
    case None => []
    case Some(c) => TopOf(c.members)
  }

  /** `renderClanDetail(clanTag)`: the clan whose tag without `#` is
      `clanTag`, its whole roster sorted by level, the 15 ranks against our
      top 15, and the tag its war log is loaded with; "Clan nicht gefunden."
      when no clan has that tag. */
  method ClanDetail(clans: seq<GroupClan>, clanTag: string) returns (r: Option<Detail>)
    ensures r.None? <==> forall i :: 0 <= i < |clans| ==> !HasTag(clans[i], clanTag)
    ensures r.Some? ==>
      && FindByTag(clans, clanTag).Some?
      && var clan := FindByTag(clans, clanTag).value;
      && r.value.name == clan.name
      && r.value.roster == SortDesc(RosterOf(clan.members))
      && r.value.warlogTag == StripFirstHash(clan.tag)
      && |r.value.rows| == TopN
      && (forall i :: 0 <= i < TopN ==> r.value.rows[i] == RowAt(OurTop(clans), TopOf(clan.members), i))
      && forall i :: 0 <= i < TopN ==>
           r.value.rows[i].diff == ThAt(TopOf(clan.members), i) - ThAt(OurTop(clans), i)
           && r.value.rows[i].band == BandOf(r.value.rows[i].diff)
  {
    var ourTop := OurTop(clans);
    var found := FindByTag(clans, clanTag);
    if found.None? {
      return None;
    }
    var clan := found.value;
    var oppTop := TopOf(clan.members);
    var rows := CompareRanks(ourTop, oppTop);
    r := Some(Detail(clan.name, SortDesc(RosterOf(clan.members)), rows, StripFirstHash(clan.tag)));
  }

  /** Against a clan whose `members` is not an array every opponent rank is
      empty, so each diff is minus our level. */
  lemma NoOpponentRoster(clans: seq<GroupClan>, members: MemberField, i: nat)
    requires !members.Roster?
    ensures ThAt(TopOf(members), i) - ThAt(OurTop(clans), i) == -ThAt(OurTop(clans), i)
  {
  }
}

=== FILE: histogram.dfy ===
/** The town-hall histogram of `GET /api/cwl` (server.js): every member of
    every frozen roster in the league group is counted under its town-hall
    bucket and its clan's name. Buckets exist only when some member falls in
    them, and levels are not capped. */
module Histogram {
  import opened Wrappers
  import opened Text
  import opened Tally
  import opened League

  const Unknown := "Unknown"

  /** `if (!th || th < 1) th = "Unknown"; else th = th.toString();` */
  function BucketOf(th: Option<int>): (b: string)
    ensures b == Unknown <==> th.None? || th.value < 1
    ensures th.Some? && th.value >= 1 ==> |b| >= 1 && AllDigits(b) && ParseNat(b) == th.value
    ensures th.Some? && th.value >= 1 ==> b[0] != '0'
  {
    if th.None? || th.value < 1 then Unknown
    else
      var s := NatToString(th.value);
      assert s != Unknown by { assert IsDigit(s[0]); }
      ParseNatToString(th.value);
      s
  }

  /** Two valid levels share a bucket only when they are equal. */
  lemma BucketsSeparateLevels(a: int, b: int)
    requires a >= 1 && b >= 1
    ensures BucketOf(Some(a)) == BucketOf(Some(b)) <==> a == b
  {
  }

  /** The (bucket, clan name) increments one roster contributes, in order. */
  function MemberPairs(ms: seq<Member>, name: string): seq<(string, string)>
    decreases |ms|
  {
    if ms == [] then []
    else MemberPairs(ms[..|ms| - 1], name) + [(BucketOf(ms[|ms| - 1].townHallLevel), name)]
  }

  /** The increments of all clans, clan by clan. */
  function GroupPairs(clans: seq<GroupClan>): seq<(string, string)>
    decreases |clans|
  {
    if clans == [] then []
    else
      var c := clans[|clans| - 1];
      GroupPairs(clans[..|clans| - 1]) + MemberPairs(RosterOf(c.members), c.name)
  }

  /** The table the route returns: bucket -> clan name -> count. */
  function HistogramOf(clans: seq<GroupClan>): Counts {
    BumpAll(map[], GroupPairs(clans))
  }

  /** The nested loops of the route, filling `result` in place. */
  method BuildHistogram(clans: seq<GroupClan>) returns (result: Counts)
    ensures result == HistogramOf(clans)
  {
    result := map[];
    for i := 0 to |clans|
      invariant result == BumpAll(map[], GroupPairs(clans[..i]))
    {
      var clan := clans[i];
      var members := RosterOf(clan.members);
      BumpAllAppend(map[], GroupPairs(clans[..i]), MemberPairs(members, clan.name));
      GroupPairsSnoc(clans, i);
      result := AddRoster(result, members, clan.name);
    }
    assert clans[..|clans|] == clans;
  }

  /** `members.forEach(...)`: one increment per member, in roster order. */
  method AddRoster(result: Counts, members: seq<Member>, name: string) returns (r: Counts)
    ensures r == BumpAll(result, MemberPairs(members, name))
  {
    r := result;
    assert members[..0] == [];
    for j := 0 to |members|
      invariant r == BumpAll(result, MemberPairs(members[..j], name))
    {
      var th := BucketOf(members[j].townHallLevel);
      MemberPairsSnoc(members, name, j);
      BumpAllSnoc(result, MemberPairs(members[..j], name), (th, name));
      r := Bump(r, th, name);
    }
    assert members[..|members|] == members;
  }

  lemma BumpAllSnoc(m: Counts, ps: seq<(string, string)>, p: (string, string))
    ensures BumpAll(m, ps + [p]) == Bump(BumpAll(m, ps), p.0, p.1)
  {
    assert (ps + [p])[..|ps|] == ps;
  }

  lemma MemberPairsSnoc(ms: seq<Member>, name: string, j: nat)
    requires j < |ms|
    ensures MemberPairs(ms[..j + 1], name) ==
            MemberPairs(ms[..j], name) + [(BucketOf(ms[j].townHallLevel), name)]
  {
    assert ms[..j + 1][..j] == ms[..j];
  }

  lemma GroupPairsSnoc(clans: seq<GroupClan>, i: nat)
    requires i < |clans|
    ensures GroupPairs(clans[..i + 1]) ==
            GroupPairs(clans[..i]) + MemberPairs(RosterOf(clans[i].members), clans[i].name)
  {
    assert clans[..i + 1][..i] == clans[..i];
  }

  // ---- Properties ---------------------------------------------------------

  /** Number of roster members over all clans whose roster is an array. */
  function MemberTotal(clans: seq<GroupClan>): nat
    decreases |clans|
  {
    if clans == [] then 0
    else MemberTotal(clans[..|clans| - 1]) + |RosterOf(clans[|clans| - 1].members)|
  }

  /** Number of members of `ms` in `bucket`. */
  function InBucket(ms: seq<Member>, bucket: string): nat
    decreases |ms|
  {
    if ms == [] then 0
    else InBucket(ms[..|ms| - 1], bucket) + (if BucketOf(ms[|ms| - 1].townHallLevel) == bucket then 1 else 0)
  }

  lemma {:induction false} MemberPairsLength(ms: seq<Member>, name: string)
    ensures |MemberPairs(ms, name)| == |ms|
    decreases |ms|
  {
    if ms != [] {
      MemberPairsLength(ms[..|ms| - 1], name);
    }
  }

  lemma {:induction false} GroupPairsLength(clans: seq<GroupClan>)
    ensures |GroupPairs(clans)| == MemberTotal(clans)
    decreases |clans|
  {
    if clans != [] {
      var c := clans[|clans| - 1];
      GroupPairsLength(clans[..|clans| - 1]);
      MemberPairsLength(RosterOf(c.members), c.name);
    }
  }

  /** Counting conservation: the counts of all buckets and clans add up to the
      number of frozen members; a clan whose `members` is not an array adds
      nothing. */
  lemma HistogramConserves(clans: seq<GroupClan>)
    ensures Total2(HistogramOf(clans)) == MemberTotal(clans)
  {
    TotalEmpty(map[]);
    TotalBumpAll(map[], GroupPairs(clans));
    GroupPairsLength(clans);
  }

  /** A roster's increments hold (bucket, name) as often as it has members in
      that bucket, and no pair with another name. */
  lemma {:induction false} MemberPairsCount(ms: seq<Member>, name: string, bucket: string, n: string)
    ensures multiset(MemberPairs(ms, name))[(bucket, n)] == if n == name then InBucket(ms, bucket) else 0
    decreases |ms|
  {
    if ms != [] {
      MemberPairsCount(ms[..|ms| - 1], name, bucket, n);
    }
  }

  /** Appending a clan adds its members in each bucket to the counter under
      its name: clans that share a name share one counter. */
  lemma HistogramAppendClan(clans: seq<GroupClan>, c: GroupClan, bucket: string, name: string)
    ensures Get(HistogramOf(clans + [c]), bucket, name)
            == Get(HistogramOf(clans), bucket, name)
               + (if c.name == name then InBucket(RosterOf(c.members), bucket) else 0)
  {
    var ps := GroupPairs(clans);
    var qs := MemberPairs(RosterOf(c.members), c.name);
    assert (clans + [c])[..|clans|] == clans;
    assert GroupPairs(clans + [c]) == ps + qs;
    BumpAllAppend(map[], ps, qs);
    GetBumpAll(HistogramOf(clans), qs, bucket, name);
    MemberPairsCount(RosterOf(c.members), c.name, bucket, name);
  }

  /** Some frozen member of a clan named `name` falls in `bucket`. */
  ghost predicate Contributes(clans: seq<GroupClan>, bucket: string, name: string) {
    exists i, j :: 0 <= i < |clans| && 0 <= j < |RosterOf(clans[i].members)|
                   && clans[i].name == name
                   && BucketOf(RosterOf(clans[i].members)[j].townHallLevel) == bucket
  }

  /** Every member's pair is among its roster's increments ... */
  lemma {:induction false} MemberPairsAt(ms: seq<Member>, name: string, j: nat)
    requires j < |ms|
    ensures (BucketOf(ms[j].townHallLevel), name) in MemberPairs(ms, name)
    decreases |ms|
  {
    var k := |ms| - 1;
    if j < k {
      MemberPairsAt(ms[..k], name, j);
    }
  }

  /** ... and every increment comes from a member. */
  lemma {:induction false} MemberPairsSource(ms: seq<Member>, name: string, p: (string, string))
      returns (j: nat)
    requires p in MemberPairs(ms, name)
    ensures j < |ms| && p == (BucketOf(ms[j].townHallLevel), name)
    decreases |ms|
  {
    var k := |ms| - 1;
    if p in MemberPairs(ms[..k], name) {
      j := MemberPairsSource(ms[..k], name, p);
    } else {
      j := k;
    }
  }

  lemma {:induction false} GroupPairsAt(clans: seq<GroupClan>, i: nat, j: nat)
    requires i < |clans| && j < |RosterOf(clans[i].members)|
    ensures (BucketOf(RosterOf(clans[i].members)[j].townHallLevel), clans[i].name) in GroupPairs(clans)
    decreases |clans|
  {
    var k := |clans| - 1;
    if i < k {
      GroupPairsAt(clans[..k], i, j);
    } else {
      MemberPairsAt(RosterOf(clans[k].members), clans[k].name, j);
    }
  }

  lemma {:induction false} GroupPairsSource(clans: seq<GroupClan>, p: (string, string))
      returns (i: nat, j: nat)
    requires p in GroupPairs(clans)
    ensures i < |clans| && j < |RosterOf(clans[i].members)|
    ensures p == (BucketOf(RosterOf(clans[i].members)[j].townHallLevel), clans[i].name)
    decreases |clans|
  {
    var k := |clans| - 1;
    if p in GroupPairs(clans[..k]) {
      i, j := GroupPairsSource(clans[..k], p);
    } else {
      i := k;
      j := MemberPairsSource(RosterOf(clans[k].members), clans[k].name, p);
    }
  }

  lemma GroupPairsHas(clans: seq<GroupClan>, bucket: string, name: string)
    ensures (bucket, name) in GroupPairs(clans) <==> Contributes(clans, bucket, name)
  {
    if (bucket, name) in GroupPairs(clans) {
      var i, j := GroupPairsSource(clans, (bucket, name));
    }
    if Contributes(clans, bucket, name) {
      var i, j :| 0 <= i < |clans| && 0 <= j < |RosterOf(clans[i].members)|
                  && clans[i].name == name
                  && BucketOf(RosterOf(clans[i].members)[j].townHallLevel) == bucket;
      GroupPairsAt(clans, i, j);
    }
  }

  /** Only buckets and clans that received a member appear, each with a count
      of at least 1 equal to the number of members it received; and every
      member's (bucket, clan) entry appears. */
  lemma HistogramEntries(clans: seq<GroupClan>, bucket: string, name: string)
    ensures WellFormed(HistogramOf(clans))
    ensures (bucket in HistogramOf(clans) && name in HistogramOf(clans)[bucket])
            <==> Contributes(clans, bucket, name)
    ensures Get(HistogramOf(clans), bucket, name) == multiset(GroupPairs(clans))[(bucket, name)]
  {
    FromEmpty(GroupPairs(clans), bucket, name);
    GetBumpAll(map[], GroupPairs(clans), bucket, name);
    GroupPairsHas(clans, bucket, name);
  }

  /** A bucket exists only when some clan has a member in it. */
  lemma HistogramBuckets(clans: seq<GroupClan>, bucket: string)
    ensures bucket in HistogramOf(clans) <==> exists name :: Contributes(clans, bucket, name)
  {
    OuterKeys(GroupPairs(clans), bucket);
    if bucket in HistogramOf(clans) {
      var name :| (bucket, name) in GroupPairs(clans);
      GroupPairsHas(clans, bucket, name);
    }
    if exists name :: Contributes(clans, bucket, name) {
      var name :| Contributes(clans, bucket, name);
      GroupPairsHas(clans, bucket, name);
    }
  }

  /** Clan A with members at levels 15 and 10, clan B with one member at 12:
      three buckets, each with one member of one clan. */
  lemma TwoClanExample(a15: Member, a10: Member, b12: Member)
    requires a15.townHallLevel == Some(15) && a10.townHallLevel == Some(10)
    requires b12.townHallLevel == Some(12)
    ensures HistogramOf([GroupClan("#A", "A", Roster([a15, a10])), GroupClan("#B", "B", Roster([b12]))])
            == map["15" := map["A" := 1], "10" := map["A" := 1], "12" := map["B" := 1]]
  {
    ExamplePairs(a15, a10, b12);
    ExampleBumps();
  }

  lemma ExamplePairs(a15: Member, a10: Member, b12: Member)
    requires a15.townHallLevel == Some(15) && a10.townHallLevel == Some(10)
    requires b12.townHallLevel == Some(12)
    ensures GroupPairs([GroupClan("#A", "A", Roster([a15, a10])), GroupClan("#B", "B", Roster([b12]))])
            == [("15", "A"), ("10", "A"), ("12", "B")]
  {
    var ca := GroupClan("#A", "A", Roster([a15, a10]));
    var cb := GroupClan("#B", "B", Roster([b12]));
    ExampleBuckets();
    assert [a15, a10][..1] == [a15] && [a15][..0] == [] && [b12][..0] == [];
    assert MemberPairs([a15], "A") == [("15", "A")];
    assert MemberPairs([a15, a10], "A") == [("15", "A"), ("10", "A")];
    assert MemberPairs([b12], "B") == [("12", "B")];
    assert [ca, cb][..1] == [ca] && [ca][..0] == [];
    assert GroupPairs([ca]) == [("15", "A"), ("10", "A")];
  }

  lemma ExampleBuckets()
    ensures BucketOf(Some(15)) == "15" && BucketOf(Some(10)) == "10" && BucketOf(Some(12)) == "12"
  {
    assert NatToString(15) == "15" && NatToString(10) == "10" && NatToString(12) == "12";
  }

  lemma ExampleBumps()
    ensures BumpAll(map[], [("15", "A"), ("10", "A"), ("12", "B")])
            == map["15" := map["A" := 1], "10" := map["A" := 1], "12" := map["B" := 1]]
  {
    var ps := [("15", "A"), ("10", "A"), ("12", "B")];
    assert ps[..2] == [("15", "A"), ("10", "A")] && ps[..2][..1] == [("15", "A")] && ps[..2][..1][..0] == [];
    var m1 := BumpAll(map[], ps[..2][..1]);
    assert BumpAll(map[], ps[..2][..1][..0]) == map[];
    assert m1 == map["15" := map["A" := 1]];
    var m2 := BumpAll(map[], ps[..2]);
    assert m2 == map["15" := map["A" := 1], "10" := map["A" := 1]];
  }
}

=== FILE: league.dfy ===
/** The league-group data that both the server and the browser read: the clans
    of the current Clan War League group, each with its frozen roster, and
    the war tags of the rounds. Upstream JSON fields that may be missing are
    `Option`s; the `members` field is kept in the three shapes the code tells
    apart (an array, a plain number, anything else). */
module League {
  import opened Wrappers
  import opened Text

  /** A roster member; `townHallLevel` is `None` when the field is absent or null. */
  datatype Member = Member(tag: string, name: string, townHallLevel: Option<int>)

  /** The `members` field of a league-group clan. */
  datatype MemberField = Roster(list: seq<Member>) | MemberCount(n: int) | NoRoster

  datatype GroupClan = GroupClan(tag: string, name: string, members: MemberField)

  datatype Round = Round(warTag: string)

  datatype LeagueGroup = LeagueGroup(clans: seq<GroupClan>, rounds: seq<Round>)

  /** `Array.isArray(c.members) ? c.members : []` */
  function RosterOf(f: MemberField): (ms: seq<Member>)
    ensures f.Roster? ==> ms == f.list
    ensures !f.Roster? ==> ms == []
  {
    if f.Roster? then f.list else []
  }

  /** A clan matches a tag written without `#` when its own tag, with the
      first `#` removed, equals it. */
  predicate HasTag(c: GroupClan, tag: string) {
    StripFirstHash(c.tag) == tag
  }

  /** Index of the first clan that has `tag` (the index `Array.prototype.find`
      stops at). */
  function FindIndex(clans: seq<GroupClan>, tag: string): (r: Option<nat>)
    ensures r.None? <==> forall i :: 0 <= i < |clans| ==> !HasTag(clans[i], tag)
    ensures r.Some? ==> r.value < |clans| && HasTag(clans[r.value], tag)
                        && forall j :: 0 <= j < r.value ==> !HasTag(clans[j], tag)
    decreases |clans|
  {
    if clans == [] then None
    else if HasTag(clans[0], tag) then Some(0)
    else match FindIndex(clans[1..], tag)
      case None => None
      case Some(i) => Some(i + 1)
  }

  /** `clans.find((c) => c.tag.replace("#", "") === tag)` */
  function FindByTag(clans: seq<GroupClan>, tag: string): (r: Option<GroupClan>)
    ensures r.None? <==> forall i :: 0 <= i < |clans| ==> !HasTag(clans[i], tag)
    ensures r.Some? ==> HasTag(r.value, tag) && r.value in clans
    ensures r.Some? <==> FindIndex(clans, tag).Some?
    ensures r.Some? ==> r.value == clans[FindIndex(clans, tag).value]
  {
    match FindIndex(clans, tag)
    case None => None
    case Some(i) => Some(clans[i])
  }
}

=== FILE: nav.dfy ===
/** The navigation bar and the hash router of the browser client
    (public/script.js, `buildDynamicNav` and `route`): an overview link, then
    our own clan, then every other clan of the league group in group order. */
module Nav {
  import opened Wrappers
  import opened Text
  import opened League
  import opened Compare

  /** "Übersicht", a link to `#clan/<target>`, or "(Fehler beim Laden der CWL)". */
  datatype NavItem = OverviewLink | ClanLink(target: string, name: string) | GroupError

  /** `clans.filter((c) => c.tag.replace("#", "") !== MY_CLAN_TAG)` */
  function Others(clans: seq<GroupClan>): (r: seq<GroupClan>)
    ensures |r| <= |clans|
    ensures forall i :: 0 <= i < |r| ==> !HasTag(r[i], MyClanTag) && r[i] in clans
    decreases |clans|
  {
    if clans == [] then []
    else (if HasTag(clans[0], MyClanTag) then [] else [clans[0]]) + Others(clans[1..])
  }

  /** The clans of the group that carry our tag (the complement of `Others`). */
  function Owns(clans: seq<GroupClan>): (r: seq<GroupClan>)
    ensures forall i :: 0 <= i < |r| ==> HasTag(r[i], MyClanTag)
    decreases |clans|
  {
    if clans == [] then []
    else (if HasTag(clans[0], MyClanTag) then [clans[0]] else []) + Owns(clans[1..])
  }

  /** The clans that get a clan link, in link order. */
  function NavClans(clans: seq<GroupClan>): seq<GroupClan> {
    match FindByTag(clans, MyClanTag)
    case None => Others(clans)
    case Some(c) => [c] + Others(clans)
  }

  function LinkOf(c: GroupClan): NavItem {
    ClanLink(StripFirstHash(c.tag), c.name)
  }

  /** The links `buildDynamicNav` writes, for the group `getCWLGroupInfo`
      delivered, or for a failure to deliver it or to read its clans. */
  function NavItems(group: Result<seq<GroupClan>, string>): (r: seq<NavItem>)
    ensures |r| >= 1 && r[0] == OverviewLink
    ensures group.Failure? ==> r == [OverviewLink, GroupError]
    ensures group.Success? ==> |r| == 1 + |NavClans(group.value)|
    ensures group.Success? ==> forall i :: 0 <= i < |NavClans(group.value)| ==>
              r[i + 1] == LinkOf(NavClans(group.value)[i])
  {
    match group
    case Failure(_) => [OverviewLink, GroupError]
    case Success(clans) =>
      var shown := NavClans(clans);
      [OverviewLink] + seq(|shown|, i requires 0 <= i < |shown| => LinkOf(shown[i]))
  }

  // ---- Properties ---------------------------------------------------------

  /** Our clan, when it is in the group, is the first clan link, and it
      leads to our tag. */
  lemma OwnClanFirst(clans: seq<GroupClan>)
    requires exists i :: 0 <= i < |clans| && HasTag(clans[i], MyClanTag)
    ensures |NavItems(Success(clans))| >= 2
    ensures NavItems(Success(clans))[1] == ClanLink(MyClanTag, FindByTag(clans, MyClanTag).value.name)
  {
  }

  /** Only the first clan link, and only when our clan is in the group, can
      lead to our tag: our clan is linked at most once. */
  lemma OwnTagLinkedOnce(clans: seq<GroupClan>, k: nat)
    requires k < |NavClans(clans)| && LinkOf(NavClans(clans)[k]).target == MyClanTag
    ensures k == 0 && FindByTag(clans, MyClanTag).Some?
  {
  }

  /** Without our clan in the group, the links follow the group order. */
  lemma NoOwnClanKeepsOrder(clans: seq<GroupClan>)
    requires forall i :: 0 <= i < |clans| ==> !HasTag(clans[i], MyClanTag)
    ensures NavClans(clans) == clans
  {
    OthersAll(clans);
  }

  lemma {:induction false} OthersAll(clans: seq<GroupClan>)
    requires forall i :: 0 <= i < |clans| ==> !HasTag(clans[i], MyClanTag)
    ensures Others(clans) == clans
    decreases |clans|
  {
    if clans != [] {
      OthersAll(clans[1..]);
    }
  }

  /** Filtering keeps group order: the other clans of two parts of a group
      are those of the first part followed by those of the second. */
  lemma {:induction false} OthersAppend(a: seq<GroupClan>, b: seq<GroupClan>)
    ensures Others(a + b) == Others(a) + Others(b)
    decreases |a|
  {
    if a == [] {
      assert a + b == b;
    } else {
      assert (a + b)[0] == a[0] && (a + b)[1..] == a[1..] + b;
      OthersAppend(a[1..], b);
    }
  }

  /** Every clan is either ours or another. */
  lemma {:induction false} Partition(clans: seq<GroupClan>)
    ensures multiset(Owns(clans)) + multiset(Others(clans)) == multiset(clans)
    decreases |clans|
  {
    if clans != [] {
      Partition(clans[1..]);
      assert clans == [clans[0]] + clans[1..];
    }
  }

  /** `find` returns the first of our clans. */
  lemma {:induction false} FindIsFirstOwn(clans: seq<GroupClan>)
    ensures FindByTag(clans, MyClanTag).None? <==> Owns(clans) == []
    ensures FindByTag(clans, MyClanTag).Some? ==> FindByTag(clans, MyClanTag).value == Owns(clans)[0]
    decreases |clans|
  {
    if clans != [] {
      FindIsFirstOwn(clans[1..]);
      if !HasTag(clans[0], MyClanTag) {
        assert forall i :: 0 <= i < |clans[1..]| ==> clans[1..][i] == clans[i + 1];
        match FindIndex(clans[1..], MyClanTag)
        case None =>
        case Some(k) =>
      }
    }
  }

  /** With at most one clan carrying our tag, every clan of the group gets
      exactly one link. */
  lemma EveryClanLinkedOnce(clans: seq<GroupClan>)
    requires |Owns(clans)| <= 1
    ensures multiset(NavClans(clans)) == multiset(clans)
  {
    Partition(clans);
    FindIsFirstOwn(clans);
    if |Owns(clans)| == 1 {
      assert Owns(clans) == [Owns(clans)[0]];
    }
  }

  // ---- Routing ------------------------------------------------------------

  datatype View = ShowOverview | ShowClan(tag: string) | Unchanged

  /** The part of `s` before its first `/`. */
  function UpToSlash(s: string): (r: string)
    ensures '/' !in r
    ensures |r| <= |s| && r == s[..|r|]
    ensures |r| < |s| ==> s[|r|] == '/'
    ensures '/' !in s ==> r == s
    decreases |s|
  {
    if s == [] || s[0] == '/' then []
    else [s[0]] + UpToSlash(s[1..])
  }

  const ClanPrefix := "#clan/"

  /** `route()`: an empty hash is `#overview`; `#clan/<tag>` shows the clan
      named by the second `/`-separated segment; any other hash changes
      nothing. */
  function Route(hash: string): (v: View)
    ensures v == ShowOverview <==> hash == "" || hash == "#overview"
    ensures v.ShowClan? <==> |hash| >= |ClanPrefix| && hash[..|ClanPrefix|] == ClanPrefix
    ensures v.ShowClan? ==> v.tag == UpToSlash(hash[|ClanPrefix|..])
  {
    var h := if hash == "" then "#overview" else hash;
    if h == "#overview" then
      assert hash != "" ==> hash[..|ClanPrefix|][1] != ClanPrefix[1];
      ShowOverview
    else if |h| >= |ClanPrefix| && h[..|ClanPrefix|] == ClanPrefix then
      ShowClan(UpToSlash(h[|ClanPrefix|..]))
    else Unchanged
  }

  /** Following a clan link opens that clan's detail view: the target is
      routed back to itself and finds a clan of the group. */
  lemma LinkOpensClan(clans: seq<GroupClan>, i: nat)
    requires i < |NavClans(clans)|
    requires '/' !in NavClans(clans)[i].tag
    ensures Route(ClanPrefix + StripFirstHash(NavClans(clans)[i].tag)) == ShowClan(StripFirstHash(NavClans(clans)[i].tag))
    ensures FindByTag(clans, StripFirstHash(NavClans(clans)[i].tag)).Some?
  {
    var c := NavClans(clans)[i];
    var t := StripFirstHash(c.tag);
    NoSlashAfterStrip(c.tag);
    var h := ClanPrefix + t;
    assert h[..|ClanPrefix|] == ClanPrefix;
    assert h[|ClanPrefix|..] == t;
    assert c in clans;
    var k :| 0 <= k < |clans| && clans[k] == c;
    assert HasTag(clans[k], t);
  }

  lemma {:induction false} NoSlashAfterStrip(s: string)
    requires '/' !in s
    ensures '/' !in StripFirstHash(s)
    decreases |s|
  {
    if s != [] && s[0] != '#' {
      NoSlashAfterStrip(s[1..]);
    }
  }
}

=== FILE: reconcile.dfy ===
/** Missing-player reconciliation, `GET /api/cwl/missing` (server.js): for
    each clan of the league group, in order, fetch its live profile and report
    every frozen-roster member whose tag is not in the live member list, in
    roster order. */
module Reconcile {
  import opened Wrappers
  import opened League
  import opened Routes

  /** `m.townHallLevel || "?"`: a level, or "?" when it is absent or 0. */
  datatype ThLabel = Level(n: int) | Question

  datatype MissingEntry = MissingEntry(name: string, tag: string, clan: string, th: ThLabel)

  datatype LiveMember = LiveMember(tag: string)

  /** A live clan profile; `memberList` is `None` when absent or not an array. */
  datatype LiveClan = LiveClan(memberList: Option<seq<LiveMember>>)

  const CompareError := "Fehler beim Vergleich"

  function ThLabelOf(th: Option<int>): (l: ThLabel)
    ensures l == Question <==> th.None? || th.value == 0
    ensures l.Level? ==> th == Some(l.n)
  {
    if th.None? || th.value == 0 then Question else Level(th.value)
  }

  /** `Array.isArray(memberList) ? memberList.map((m) => m.tag) : []` */
  function LiveTags(c: LiveClan): (tags: seq<string>)
    ensures c.memberList.None? ==> tags == []
    ensures c.memberList.Some? ==> |tags| == |c.memberList.value|
    ensures c.memberList.Some? ==> forall i :: 0 <= i < |tags| ==> tags[i] == c.memberList.value[i].tag
  {
    match c.memberList
    case None => []
    case Some(list) => seq(|list|, i requires 0 <= i < |list| => list[i].tag)
  }

  function EntryOf(m: Member, clanName: string): MissingEntry {
    MissingEntry(m.name, m.tag, clanName, ThLabelOf(m.townHallLevel))
  }

  /** The entries one clan contributes: its frozen members absent from `live`. */
  function MissingIn(ms: seq<Member>, clanName: string, live: seq<string>): seq<MissingEntry>
    decreases |ms|
  {
    if ms == [] then []
    else
      var m := ms[|ms| - 1];
      MissingIn(ms[..|ms| - 1], clanName, live) + (if m.tag in live then [] else [EntryOf(m, clanName)])
  }

  /** What the handler computes: clan by clan, the first failed fetch aborts. */
  function Reconciled(clans: seq<GroupClan>, fetch: string -> Result<LiveClan, UpstreamError>)
    : Result<seq<MissingEntry>, UpstreamError>
    decreases |clans|
  {
    if clans == [] then Success([])
    else
      var c := clans[|clans| - 1];
      match Reconciled(clans[..|clans| - 1], fetch)
      case Failure(e) => Failure(e)
      case Success(acc) =>
        match fetch(c.tag)
        case Failure(e) => Failure(e)
        case Success(live) => Success(acc + MissingIn(RosterOf(c.members), c.name, LiveTags(live)))
  }

  /** The loop of the handler: one live fetch per clan, `missing.push` per
      absent member. */
  method ReconcileClans(clans: seq<GroupClan>, fetch: string -> Result<LiveClan, UpstreamError>)
      returns (r: Result<seq<MissingEntry>, UpstreamError>)
    ensures r == Reconciled(clans, fetch)
  {
    var missing: seq<MissingEntry> := [];
    for i := 0 to |clans|
      invariant Reconciled(clans[..i], fetch) == Success(missing)
    {
      var cwlClan := clans[i];
      var members := RosterOf(cwlClan.members);
      var clanData := fetch(cwlClan.tag);
      assert clans[..i + 1][..i] == clans[..i];
      if clanData.Failure? {
        FailureSticks(clans, i + 1, fetch);
        assert clans[..|clans|] == clans;
        return Failure(clanData.error);
      }
      var currentMembers := LiveTags(clanData.value);
      ghost var acc := missing;
      assert members[..0] == [];
      for j := 0 to |members|
        invariant missing == acc + MissingIn(members[..j], cwlClan.name, currentMembers)
      {
        assert members[..j + 1][..j] == members[..j];
        if members[j].tag !in currentMembers {
          missing := missing + [EntryOf(members[j], cwlClan.name)];
        }
      }
      assert members[..|members|] == members;
    }
    assert clans[..|clans|] == clans;
    return Success(missing);
  }

  /** Once a prefix of the clans fails, the whole reconciliation fails with
      the same error. */
  lemma {:induction false} FailureSticks(clans: seq<GroupClan>, k: nat,
                                        fetch: string -> Result<LiveClan, UpstreamError>)
    requires k <= |clans| && Reconciled(clans[..k], fetch).Failure?
    ensures Reconciled(clans, fetch) == Reconciled(clans[..k], fetch)
    decreases |clans| - k
  {
    if k < |clans| {
      var n := |clans| - 1;
      assert clans[..n][..k] == clans[..k];
      FailureSticks(clans[..n], k, fetch);
      assert clans[..|clans|] == clans;
    } else {
      assert clans[..k] == clans;
    }
  }

  /** `GET /api/cwl/missing`: `{ missing }`, or a 500 when the group or any
      clan profile cannot be fetched. */
  method MissingRoute(group: Result<LeagueGroup, UpstreamError>,
                      fetch: string -> Result<LiveClan, UpstreamError>)
      returns (resp: Response<seq<MissingEntry>>)
    ensures group.Failure? ==> resp == ErrorReply(500, CompareError, Some(group.error.message))
    ensures group.Success? ==>
      match Reconciled(group.value.clans, fetch)
      case Success(missing) => resp == Json200(missing)
      case Failure(e) => resp == ErrorReply(500, CompareError, Some(e.message))
  {
    if group.Failure? {
      return ErrorReply(500, CompareError, Some(group.error.message));
    }
    var r := ReconcileClans(group.value.clans, fetch);
    match r
    case Success(missing) => resp := Json200(missing);
    case Failure(e) => resp := ErrorReply(500, CompareError, Some(e.message));
  }

  // ---- Properties ---------------------------------------------------------

  /** Set difference: an entry is reported exactly for a frozen member whose
      tag is absent from the live tags. */
  lemma {:induction false} MissingInExactly(ms: seq<Member>, clanName: string, live: seq<string>, e: MissingEntry)
    ensures e in MissingIn(ms, clanName, live) <==>
            exists k :: 0 <= k < |ms| && ms[k].tag !in live && e == EntryOf(ms[k], clanName)
    decreases |ms|
  {
    if ms != [] {
      var n := |ms| - 1;
      MissingInExactly(ms[..n], clanName, live, e);
      if exists k :: 0 <= k < |ms| && ms[k].tag !in live && e == EntryOf(ms[k], clanName) {
        var k :| 0 <= k < |ms| && ms[k].tag !in live && e == EntryOf(ms[k], clanName);
        if k < n {
          assert ms[..n][k] == ms[k];
        }
      }
      if exists k :: 0 <= k < n && ms[..n][k].tag !in live && e == EntryOf(ms[..n][k], clanName) {
        var k :| 0 <= k < n && ms[..n][k].tag !in live && e == EntryOf(ms[..n][k], clanName);
        assert ms[k] == ms[..n][k];
      }
    }
  }

  /** Roster order: the entries of a longer roster extend those of its prefix. */
  lemma {:induction false} MissingInAppend(ms: seq<Member>, ns: seq<Member>, clanName: string, live: seq<string>)
    ensures MissingIn(ms + ns, clanName, live) == MissingIn(ms, clanName, live) + MissingIn(ns, clanName, live)
    decreases |ns|
  {
    if ns == [] {
      assert ms + ns == ms;
    } else {
      var n := |ns| - 1;
      assert (ms + ns)[..|ms + ns| - 1] == ms + ns[..n];
      MissingInAppend(ms, ns[..n], clanName, live);
    }
  }

  /** A clan whose frozen tags are all live contributes nothing. */
  lemma {:induction false} AllPresentNoneMissing(ms: seq<Member>, clanName: string, live: seq<string>)
    requires forall k :: 0 <= k < |ms| ==> ms[k].tag in live
    ensures MissingIn(ms, clanName, live) == []
    decreases |ms|
  {
    if ms != [] {
      AllPresentNoneMissing(ms[..|ms| - 1], clanName, live);
    }
  }

  /** A clan without a live member list has its whole frozen roster reported,
      in roster order. */
  lemma {:induction false} NoLiveListAllMissing(ms: seq<Member>, clanName: string)
    ensures |MissingIn(ms, clanName, LiveTags(LiveClan(None)))| == |ms|
    ensures forall k :: 0 <= k < |ms| ==> MissingIn(ms, clanName, LiveTags(LiveClan(None)))[k] == EntryOf(ms[k], clanName)
    decreases |ms|
  {
    if ms != [] {
      NoLiveListAllMissing(ms[..|ms| - 1], clanName);
    }
  }

  /** Clan order: when every fetch succeeds, appending a clan appends its
      entries after those of the clans before it. */
  lemma ReconciledAppend(clans: seq<GroupClan>, c: GroupClan, fetch: string -> Result<LiveClan, UpstreamError>)
    requires Reconciled(clans, fetch).Success? && fetch(c.tag).Success?
    ensures Reconciled(clans + [c], fetch)
            == Success(Reconciled(clans, fetch).value
                       + MissingIn(RosterOf(c.members), c.name, LiveTags(fetch(c.tag).value)))
  {
    assert (clans + [c])[..|clans|] == clans;
  }

  /** The first failed profile fetch, in group order, is the one reported. */
  lemma {:induction false} ReconciledFailsAtFirst(clans: seq<GroupClan>, fetch: string -> Result<LiveClan, UpstreamError>, k: nat)
    requires k < |clans| && fetch(clans[k].tag).Failure?
    requires forall j :: 0 <= j < k ==> fetch(clans[j].tag).Success?
    ensures Reconciled(clans, fetch) == Failure(fetch(clans[k].tag).error)
  {
    AllFetchedSucceeds(clans[..k], fetch);
    assert clans[..k + 1][..k] == clans[..k];
    FailureSticks(clans, k + 1, fetch);
  }

  lemma {:induction false} AllFetchedSucceeds(clans: seq<GroupClan>, fetch: string -> Result<LiveClan, UpstreamError>)
    requires forall j :: 0 <= j < |clans| ==> fetch(clans[j].tag).Success?
    ensures Reconciled(clans, fetch).Success?
    decreases |clans|
  {
    if clans != [] {
      AllFetchedSucceeds(clans[..|clans| - 1], fetch);
    }
  }

  /** Frozen tags #P1, #P2, #P3 against live tags #P1, #P3: only #P2 is missing. */
  lemma OneLeaverExample(p1: Member, p2: Member, p3: Member)
    requires p1.tag == "#P1" && p2.tag == "#P2" && p3.tag == "#P3"
    ensures MissingIn([p1, p2, p3], "A", ["#P1", "#P3"]) == [EntryOf(p2, "A")]
  {
    var live := ["#P1", "#P3"];
    assert p2.tag !in live by {
      assert p2.tag[2] == '2' && live[0][2] == '1' && live[1][2] == '3';
    }
    assert p1.tag in live && p3.tag in live;
    assert [p1, p2, p3][..2] == [p1, p2];
    assert [p1, p2][..1] == [p1];
    assert [p1][..0] == [];
    assert MissingIn([p1], "A", live) == [];
    assert MissingIn([p1, p2], "A", live) == [EntryOf(p2, "A")];
  }
}

=== FILE: routes.dfy ===
/** The server's route handlers that pass upstream data through, and the way
    each of them turns a failed upstream call into an HTTP response
    (server.js). Upstream calls are parameters: a `Result` for a single call,
    a function from the requested tag for a call that depends on an earlier
    answer. */
module Routes {
  import opened Wrappers
  import opened League

  /** A rejected upstream call: with an HTTP response (`err.response.status`)
      or without one (network failure, or a TypeError thrown by the handler). */
  datatype UpstreamError = HttpError(status: int, message: string) | NoResponse(message: string)

  /** What a handler sends: `res.json(body)`, `res.json({ private: true })`,
      or `res.status(s).json({ error, details })`. */
  datatype Response<T> =
    | Json200(body: T)
    | PrivateLog
    | ErrorReply(status: int, error: string, details: Option<string>)
  {
    function Status(): int {
      if ErrorReply? then status else 200
    }
  }

  /** `err.response && err.response.status === code` */
  predicate HasStatus(e: UpstreamError, code: int) {
    e.HttpError? && e.status == code
  }

  const ServerError := "Serverfehler"
  const CwlNotFound := "CWL nicht gefunden oder Clan-Tag falsch."
  const WarNotFound := "Kriegstag nicht gefunden oder Clan-Tag falsch."
  const ClanLoadError := "Fehler beim Laden des Clans"
  const ClanNotFound := "Clan nicht gefunden."
  /** The TypeError message when the requested round does not exist. */
  const NoRoundMessage := "Cannot read properties of undefined (reading 'warTag')"

  /** The catch block of the league routes (`/api/cwl`, `/api/cwl/group`,
      `/api/cwl/war/:index`): 404 is reported as not found, anything else as a
      server error carrying the message. */
  function LeagueFailure<T>(e: UpstreamError, notFound: string): (r: Response<T>)
    ensures r.ErrorReply?
    ensures r.Status() == 404 <==> HasStatus(e, 404)
    ensures r.Status() == 500 <==> !HasStatus(e, 404)
    ensures r.Status() == 404 ==> r.error == notFound && r.details.None?
    ensures r.Status() == 500 ==> r.error == ServerError && r.details == Some(e.message)
  {
    if HasStatus(e, 404) then ErrorReply(404, notFound, None)
    else ErrorReply(500, ServerError, Some(e.message))
  }

  /** The catch block of `/api/clan/:tag`: every failure, 404 included, is a 500. */
  function ClanFailure<T>(e: UpstreamError): (r: Response<T>)
    ensures r.ErrorReply? && r.Status() == 500
    ensures r.error == ClanLoadError && r.details == Some(e.message)
  {
    ErrorReply(500, ClanLoadError, Some(e.message))
  }

  /** The catch block of `/api/clan/:tag/warlog`: a 403 means the log is
      private and is answered with 200 and `{ private: true }`. */
  function WarlogFailure<T>(e: UpstreamError): (r: Response<T>)
    ensures r.PrivateLog? <==> HasStatus(e, 403)
    ensures r.Status() == 200 <==> HasStatus(e, 403)
    ensures r.Status() == 404 <==> HasStatus(e, 404)
    ensures r.Status() == 500 <==> !HasStatus(e, 403) && !HasStatus(e, 404)
    ensures r.Status() == 404 ==> r.error == ClanNotFound && r.details.None?
    ensures r.Status() == 500 ==> r.error == ServerError && r.details == Some(e.message)
  {
    if HasStatus(e, 403) then PrivateLog
    else if HasStatus(e, 404) then ErrorReply(404, ClanNotFound, None)
    else ErrorReply(500, ServerError, Some(e.message))
  }

  /** `GET /api/cwl/group`: the league group as upstream sent it. */
  function GroupRoute(fetched: Result<LeagueGroup, UpstreamError>): (r: Response<LeagueGroup>)
    ensures fetched.Success? <==> r.Json200?
    ensures fetched.Success? ==> r.body == fetched.value
    ensures fetched.Failure? ==> r == LeagueFailure(fetched.error, CwlNotFound)
  {
    match fetched
    case Success(g) => Json200(g)
    case Failure(e) => LeagueFailure(e, CwlNotFound)
  }

  /** `GET /api/clan/:tag`: the clan profile, or a 500 for any failure. */
  function ClanRoute<C>(fetched: Result<C, UpstreamError>): (r: Response<C>)
    ensures fetched.Success? <==> r.Status() == 200
    ensures fetched.Success? ==> r == Json200(fetched.value)
    ensures fetched.Failure? ==> r.Status() == 500
    ensures fetched.Failure? ==> r == ClanFailure(fetched.error)
  {
    match fetched
    case Success(c) => Json200(c)
    case Failure(e) => ClanFailure(e)
  }

  /** `GET /api/clan/:tag/warlog`: the log, `{ private: true }` for a private
      log, 404 for an unknown clan, 500 otherwise. */
  function WarlogRoute<L>(fetched: Result<L, UpstreamError>): (r: Response<L>)
    ensures r.Json200? <==> fetched.Success?
    ensures fetched.Success? ==> r.body == fetched.value
    ensures r.PrivateLog? <==> fetched.Failure? && HasStatus(fetched.error, 403)
    ensures fetched.Failure? ==> r == WarlogFailure(fetched.error)
  {
    match fetched
    case Success(l) => Json200(l)
    case Failure(e) => WarlogFailure(e)
  }

  /** `group.data.rounds[index - 1]`: rounds are numbered from 1; an index
      that is not a number or out of range selects nothing. */
  function RoundAt(rounds: seq<Round>, index: Option<int>): (r: Option<Round>)
    ensures r.Some? <==> index.Some? && 1 <= index.value <= |rounds|
    ensures r.Some? ==> r.value == rounds[index.value - 1]
  {
    if index.Some? && 1 <= index.value <= |rounds| then Some(rounds[index.value - 1]) else None
  }

  /** `GET /api/cwl/war/:index`: fetch the group, pick round `index`
      (1-based), fetch that round's war. A missing round makes the handler
      throw a TypeError, which has no `response` and so becomes a 500. */
  function WarRoute<W>(index: Option<int>, group: Result<LeagueGroup, UpstreamError>,
                       fetchWar: string -> Result<W, UpstreamError>): (r: Response<W>)
    ensures group.Failure? ==> r == LeagueFailure(group.error, WarNotFound)
    ensures group.Success? && RoundAt(group.value.rounds, index).None? ==>
              r == ErrorReply(500, ServerError, Some(NoRoundMessage))
    ensures r.Json200? <==> group.Success? && index.Some? && 1 <= index.value <= |group.value.rounds|
                            && fetchWar(group.value.rounds[index.value - 1].warTag).Success?
    ensures r.Json200? ==> r.body == fetchWar(group.value.rounds[index.value - 1].warTag).value
    ensures group.Success? && RoundAt(group.value.rounds, index).Some?
            && fetchWar(RoundAt(group.value.rounds, index).value.warTag).Failure? ==>
              r == LeagueFailure(fetchWar(RoundAt(group.value.rounds, index).value.warTag).error, WarNotFound)
  {
    match group
    case Failure(e) => LeagueFailure(e, WarNotFound)
    case Success(g) =>
      match RoundAt(g.rounds, index)
      case None => LeagueFailure(NoResponse(NoRoundMessage), WarNotFound)
      case Some(round) =>
        match fetchWar(round.warTag)
        case Success(w) => Json200(w)
        case Failure(e) => LeagueFailure(e, WarNotFound)
  }
}

=== FILE: server_cache.dfy ===
/** The server's process-wide cache and the cache-through of `GET /api/cwl`
    (server.js). The cache maps a key to a value and the time at which the
    value expires; the clock is a parameter (`now`, in milliseconds). */
module ServerCache {
  import opened Wrappers
  import opened Tally
  import opened League
  import opened Routes
  import opened Histogram

  const CwlTableKey := "cwlTable"
  /** `new NodeCache({ stdTTL: 3600 })`: one hour, in seconds. */
  const StdTtlSeconds: nat := 3600

  datatype Entry = Entry(table: Counts, expires: int)

  /** A read: a stored value is served until its expiry time has passed;
      an expired entry reads as absent. */
  function Fresh(entries: map<string, Entry>, key: string, now: int): (r: Option<Counts>)
    ensures r.Some? <==> key in entries && now <= entries[key].expires
    ensures r.Some? ==> r.value == entries[key].table
  {
    if key in entries && now <= entries[key].expires then Some(entries[key].table) else None
  }

  /** A value stored at `t` is read back unchanged through `t + ttl`, and is
      gone afterwards. */
  lemma StoredThenRead(entries: map<string, Entry>, key: string, v: Counts, t: int, ttl: nat, now: int)
    ensures now <= t + ttl ==> Fresh(entries[key := Entry(v, t + ttl)], key, now) == Some(v)
    ensures now > t + ttl ==> Fresh(entries[key := Entry(v, t + ttl)], key, now).None?
  {
  }

  /** Storing under one key leaves every other key's reads unchanged. */
  lemma StoreIsolated(entries: map<string, Entry>, key: string, other: string, e: Entry, now: int)
    requires other != key
    ensures Fresh(entries[key := e], other, now) == Fresh(entries, other, now)
  {
  }

  class ApiCache {
    var entries: map<string, Entry>
    const ttlMs: nat

    /** `new NodeCache({ stdTTL: 3600 })`: empty, keeping entries one hour. */
    constructor ()
      ensures entries == map[] && ttlMs == StdTtlSeconds * 1000
    {
      entries := map[];
      ttlMs := StdTtlSeconds * 1000;
    }

    /** `apiCache.get(key)` */
    method Get(key: string, now: int) returns (r: Option<Counts>)
      ensures r == Fresh(entries, key, now)
    {
      r := Fresh(entries, key, now);
    }

    /** `apiCache.set(key, value)` */
    method Set(key: string, value: Counts, now: int)
      modifies this
      ensures entries == old(entries)[key := Entry(value, now + ttlMs)]
    {
      entries := entries[key := Entry(value, now + ttlMs)];
    }

    /** `GET /api/cwl`: a cached table is returned as it is, without fetching
        or recomputing (a table is an object, so always truthy); otherwise the
        league group is fetched, the histogram built, stored under
        "cwlTable" and returned. A failed fetch stores nothing. */
    method CwlRoute(now: int, group: Result<LeagueGroup, UpstreamError>) returns (resp: Response<Counts>)
      modifies this
      ensures old(Fresh(entries, CwlTableKey, now)).Some? ==>
                resp == Json200(old(Fresh(entries, CwlTableKey, now)).value) && entries == old(entries)
      ensures old(Fresh(entries, CwlTableKey, now)).None? && group.Success? ==>
                resp == Json200(HistogramOf(group.value.clans))
                && entries == old(entries)[CwlTableKey := Entry(HistogramOf(group.value.clans), now + ttlMs)]
      ensures old(Fresh(entries, CwlTableKey, now)).None? && group.Failure? ==>
                resp == LeagueFailure(group.error, CwlNotFound) && entries == old(entries)
    {
      var cached := Get(CwlTableKey, now);
      if cached.Some? {
        return Json200(cached.value);
      }
      match group {
        case Failure(e) =>
          resp := LeagueFailure(e, CwlNotFound);
        case Success(g) =>
          var result := BuildHistogram(g.clans);
          Set(CwlTableKey, result, now);
          resp := Json200(result);
      }
    }
  }

  /** Two requests within the time-to-live: the second is served the table
      the first one computed, whatever upstream would now answer. */
  method RepeatedRequest(cache: ApiCache, t1: int, t2: int,
                         g1: LeagueGroup, g2: Result<LeagueGroup, UpstreamError>)
      returns (first: Response<Counts>, second: Response<Counts>)
    requires Fresh(cache.entries, CwlTableKey, t1).None?
    requires t1 <= t2 <= t1 + cache.ttlMs
    modifies cache
    ensures first == Json200(HistogramOf(g1.clans)) && second == first
  {
    first := cache.CwlRoute(t1, Success(g1));
    second := cache.CwlRoute(t2, g2);
  }
}

=== FILE: tally.dfy ===
/** Nested count maps: an object of objects whose leaves are counts, built by
    the idiom
        if (!m[a]) m[a] = {};
        m[a][b] = (m[a][b] || 0) + 1;
    which the server uses for its town-hall histogram (bucket, then clan name)
    and the browser for its missing-player tally (clan name, then bucket).
    Only keys that receive a count exist: nothing is zero-filled. */
module Tally {

  type Counts = map<string, map<string, nat>>

  /** The count stored for (a, b); an absent key reads as 0, as `|| 0` does. */
  function Get(m: Counts, a: string, b: string): nat {
    if a in m && b in m[a] then m[a][b] else 0
  }

  /** Every inner object that exists is non-empty and every stored count is at
      least 1. */
  ghost predicate WellFormed(m: Counts) {
    forall a :: a in m ==> m[a] != map[] && forall b :: b in m[a] ==> m[a][b] >= 1
  }

  /** One increment of the (a, b) counter, creating the inner object if needed. */
  function Bump(m: Counts, a: string, b: string): (r: Counts)
    ensures r.Keys == m.Keys + {a}
    ensures Get(r, a, b) == Get(m, a, b) + 1
    ensures forall a', b' :: (a' != a || b' != b) ==> Get(r, a', b') == Get(m, a', b')
    ensures WellFormed(m) ==> WellFormed(r)
  {
    var inner := if a in m then m[a] else map[];
    m[a := inner[b := (if b in inner then inner[b] else 0) + 1]]
  }

  /** The increments of `ps`, applied in order. */
  function BumpAll(m: Counts, ps: seq<(string, string)>): Counts
    decreases |ps|
  {
    if ps == [] then m
    else
      var p := ps[|ps| - 1];
      Bump(BumpAll(m, ps[..|ps| - 1]), p.0, p.1)
  }

  /** Each counter ends up raised by the number of times its pair occurs. */
  lemma {:induction false} GetBumpAll(m: Counts, ps: seq<(string, string)>, a: string, b: string)
    ensures Get(BumpAll(m, ps), a, b) == Get(m, a, b) + multiset(ps)[(a, b)]
    decreases |ps|
  {
    if ps != [] {
      var n := |ps| - 1;
      assert ps == ps[..n] + [ps[n]];
      assert multiset(ps) == multiset(ps[..n]) + multiset{ps[n]};
      GetBumpAll(m, ps[..n], a, b);
    }
  }

  /** Well-formedness survives any sequence of increments. */
  lemma {:induction false} WellFormedBumpAll(m: Counts, ps: seq<(string, string)>)
    requires WellFormed(m)
    ensures WellFormed(BumpAll(m, ps))
    decreases |ps|
  {
    if ps != [] {
      WellFormedBumpAll(m, ps[..|ps| - 1]);
    }
  }

  /** Starting from `{}`, the counter (a, b) exists exactly when the pair
      occurs in `ps`, and then holds its number of occurrences. */
  lemma FromEmpty(ps: seq<(string, string)>, a: string, b: string)
    ensures WellFormed(BumpAll(map[], ps))
    ensures (a in BumpAll(map[], ps) && b in BumpAll(map[], ps)[a]) <==> (a, b) in ps
    ensures (a, b) in ps ==> BumpAll(map[], ps)[a][b] == multiset(ps)[(a, b)]
  {
    WellFormedBumpAll(map[], ps);
    GetBumpAll(map[], ps, a, b);
  }

  /** An outer key exists exactly when some pair carries it. */
  lemma {:induction false} OuterKeys(ps: seq<(string, string)>, a: string)
    ensures a in BumpAll(map[], ps) <==> exists b :: (a, b) in ps
    decreases |ps|
  {
    if ps != [] {
      var n := |ps| - 1;
      assert ps == ps[..n] + [ps[n]];
      OuterKeys(ps[..n], a);
      if a == ps[n].0 {
        assert (a, ps[n].1) in ps;
      } else if exists b :: (a, b) in ps {
        var b :| (a, b) in ps;
        assert (a, b) in ps[..n];
      }
    }
  }

  // ---- Totals -------------------------------------------------------------

  /** Sum of `m[k]` over the keys in `keys`. */
  ghost function SumOver(m: map<string, nat>, keys: set<string>): nat
    requires keys <= m.Keys
    decreases keys
  {
    if keys == {} then 0
    else
      var k :| k in keys;
      m[k] + SumOver(m, keys - {k})
  }

  ghost function Total(m: map<string, nat>): nat {
    SumOver(m, m.Keys)
  }

  /** Sum of all counts of a nested map. */
  ghost function Total2(m: Counts): nat {
    Total(map a | a in m :: Total(m[a]))
  }

  /** The sum does not depend on which key is taken out first. */
  lemma {:induction false} SumOverRemove(m: map<string, nat>, keys: set<string>, k: string)
    requires keys <= m.Keys && k in keys
    ensures SumOver(m, keys) == m[k] + SumOver(m, keys - {k})
    decreases keys
  {
    var j :| j in keys && SumOver(m, keys) == m[j] + SumOver(m, keys - {j});
    if j != k {
      SumOverRemove(m, keys - {j}, k);
      SumOverRemove(m, keys - {k}, j);
      assert keys - {j} - {k} == keys - {k} - {j};
    }
  }

  /** Two maps that agree on `keys` have the same sum over `keys`. */
  lemma {:induction false} SumOverAgree(m1: map<string, nat>, m2: map<string, nat>, keys: set<string>)
    requires keys <= m1.Keys && keys <= m2.Keys
    requires forall k :: k in keys ==> m1[k] == m2[k]
    ensures SumOver(m1, keys) == SumOver(m2, keys)
    decreases keys
  {
    if keys != {} {
      var k :| k in keys;
      SumOverRemove(m1, keys, k);
      SumOverRemove(m2, keys, k);
      SumOverAgree(m1, m2, keys - {k});
    }
  }

  /** Overwriting one entry changes the sum by the difference. */
  lemma TotalUpdate(m: map<string, nat>, k: string, v: nat)
    ensures Total(m[k := v]) + (if k in m then m[k] else 0) == Total(m) + v
  {
    var m' := m[k := v];
    SumOverRemove(m', m'.Keys, k);
    SumOverAgree(m', m, m'.Keys - {k});
    if k in m {
      SumOverRemove(m, m.Keys, k);
      assert m'.Keys - {k} == m.Keys - {k};
    } else {
      assert m'.Keys - {k} == m.Keys;
    }
  }

  /** One increment raises the grand total by one. */
  lemma TotalBump(m: Counts, a: string, b: string)
    ensures Total2(Bump(m, a, b)) == Total2(m) + 1
  {
    var inner := if a in m then m[a] else map[];
    var inner' := inner[b := (if b in inner then inner[b] else 0) + 1];
    TotalUpdate(inner, b, (if b in inner then inner[b] else 0) + 1);
    var outer := map x | x in m :: Total(m[x]);
    var outer' := map x | x in Bump(m, a, b) :: Total(Bump(m, a, b)[x]);
    assert outer' == outer[a := Total(inner')];
    TotalUpdate(outer, a, Total(inner'));
    if a !in m {
      assert inner.Keys == {};
      assert Total(inner) == 0;
    }
  }

  /** Increments are conserved: the grand total grows by the number of pairs. */
  lemma {:induction false} TotalBumpAll(m: Counts, ps: seq<(string, string)>)
    ensures Total2(BumpAll(m, ps)) == Total2(m) + |ps|
    decreases |ps|
  {
    if ps != [] {
      var p := ps[|ps| - 1];
      TotalBumpAll(m, ps[..|ps| - 1]);
      TotalBump(BumpAll(m, ps[..|ps| - 1]), p.0, p.1);
    }
  }

  lemma TotalEmpty(m: Counts)
    requires m == map[]
    ensures Total2(m) == 0
  {
    var outer := map x | x in m :: Total(m[x]);
    assert outer.Keys == {};
  }

  /** Appending pairs adds to the counts the pairs already produced. */
  lemma {:induction false} BumpAllAppend(m: Counts, ps: seq<(string, string)>, qs: seq<(string, string)>)
    ensures BumpAll(m, ps + qs) == BumpAll(BumpAll(m, ps), qs)
    decreases |qs|
  {
    if qs == [] {
      assert ps + qs == ps;
    } else {
      var n := |qs| - 1;
      assert (ps + qs)[..|ps + qs| - 1] == ps + qs[..n];
      BumpAllAppend(m, ps, qs[..n]);
    }
  }

  /** Sum of the counts under one outer key. */
  ghost function InnerTotal(m: Counts, a: string): nat {
    if a in m then Total(m[a]) else 0
  }

  /** Number of pairs whose outer key is `a`. */
  function CountOuter(ps: seq<(string, string)>, a: string): nat
    decreases |ps|
  {
    if ps == [] then 0
    else CountOuter(ps[..|ps| - 1], a) + (if ps[|ps| - 1].0 == a then 1 else 0)
  }

  /** One increment raises the total under its own outer key only. */
  lemma InnerTotalBump(m: Counts, a: string, b: string, a': string)
    ensures InnerTotal(Bump(m, a, b), a') == InnerTotal(m, a') + (if a' == a then 1 else 0)
  {
    var inner := if a in m then m[a] else map[];
    var v := (if b in inner then inner[b] else 0) + 1;
    if a' == a {
      TotalUpdate(inner, b, v);
      if a !in m {
        assert inner.Keys == {};
      }
    } else {
      assert a' in Bump(m, a, b) ==> Bump(m, a, b)[a'] == m[a'];
    }
  }

  /** Per outer key, the counts under it grow by the number of pairs with
      that key. */
  lemma {:induction false} InnerTotalBumpAll(m: Counts, ps: seq<(string, string)>, a: string)
    ensures InnerTotal(BumpAll(m, ps), a) == InnerTotal(m, a) + CountOuter(ps, a)
    decreases |ps|
  {
    if ps != [] {
      var p := ps[|ps| - 1];
      InnerTotalBumpAll(m, ps[..|ps| - 1], a);
      InnerTotalBump(BumpAll(m, ps[..|ps| - 1]), p.0, p.1, a);
    }
  }
}

=== FILE: text.dfy ===
/** The two string operations the dashboard relies on: rendering an integer
    in decimal (`Number.prototype.toString()`, which names the town-hall
    buckets and the diff labels) and `String.prototype.replace("#", "")`,
    which removes the FIRST `#` of a tag, wherever it stands. */
module Text {

  predicate IsDigit(c: char) {
    '0' <= c <= '9'
  }

  predicate AllDigits(s: string) {
    forall i :: 0 <= i < |s| ==> IsDigit(s[i])
  }

  function DigitValue(c: char): nat
    requires IsDigit(c)
  {
    c as int - '0' as int
  }

  function DigitChar(d: nat): (c: char)
    requires d < 10
    ensures IsDigit(c) && DigitValue(c) == d
  {
    ('0' as int + d) as char
  }

  /** Decimal digits of `n`, most significant first, without leading zeros. */
  function NatToString(n: nat): (s: string)
    ensures |s| >= 1 && AllDigits(s)
    ensures s[0] == '0' <==> n == 0
    decreases n
  {
    if n < 10 then [DigitChar(n)] else NatToString(n / 10) + [DigitChar(n % 10)]
  }

  /** Reads a non-empty string of digits back as a number. */
  function ParseNat(s: string): nat
    requires |s| >= 1 && AllDigits(s)
    decreases |s|
  {
    if |s| == 1 then DigitValue(s[0])
    else ParseNat(s[..|s| - 1]) * 10 + DigitValue(s[|s| - 1])
  }

  /** Reading a rendered number gives the number back. */
  lemma {:induction false} ParseNatToString(n: nat)
    ensures ParseNat(NatToString(n)) == n
    decreases n
  {
    if n >= 10 {
      var s := NatToString(n);
      assert s[..|s| - 1] == NatToString(n / 10);
      ParseNatToString(n / 10);
    }
  }

  /** Distinct numbers render to distinct strings. */
  lemma NatToStringInjective(a: nat, b: nat)
    ensures NatToString(a) == NatToString(b) <==> a == b
  {
    ParseNatToString(a);
    ParseNatToString(b);
  }

  /** Decimal text without leading zeros is canonical: it is the rendering
      of the number it denotes, so no other text reads as that number. */
  lemma {:induction false} CanonicalDecimal(s: string)
    requires |s| >= 1 && AllDigits(s) && (s[0] == '0' ==> |s| == 1)
    ensures s == NatToString(ParseNat(s))
    decreases |s|
  {
    if |s| > 1 {
      var init := s[..|s| - 1];
      assert init[0] == s[0];
      CanonicalDecimal(init);
      var m := ParseNat(init);
      assert m != 0;
      var d := DigitValue(s[|s| - 1]);
      var n := ParseNat(s);
      assert n == m * 10 + d;
      assert n / 10 == m && n % 10 == d;
      assert DigitChar(d) == s[|s| - 1];
      assert s == init + [s[|s| - 1]];
    } else {
      assert DigitChar(DigitValue(s[0])) == s[0];
    }
  }

  /** `Number.prototype.toString()` on an integer. */
  function IntToString(n: int): (s: string)
    ensures |s| >= 1
    ensures s[0] == '-' <==> n < 0
    ensures s == "0" <==> n == 0
    ensures n >= 0 ==> AllDigits(s) && ParseNat(s) == n
    ensures n < 0 ==> |s| >= 2 && AllDigits(s[1..]) && ParseNat(s[1..]) == -n
    ensures n > 0 ==> s[0] != '0'
    ensures n < 0 ==> s[1] != '0'
  {
    if n < 0 then
      ParseNatToString(-n);
      var d := NatToString(-n);
      assert ("-" + d)[1..] == d;
      "-" + d
    else
      ParseNatToString(n);
      NatToString(n)
  }

  /** `s.replace("#", "")`: the first `#` of `s` is removed, the rest kept. */
  function StripFirstHash(s: string): (r: string)
    ensures '#' !in s ==> r == s
    ensures |r| == if '#' in s then |s| - 1 else |s|
  {
    if s == [] then []
    else if s[0] == '#' then s[1..]
    else [s[0]] + StripFirstHash(s[1..])
  }

  /** When the first `#` of `s` stands at index `i`, the result is `s` with
      index `i` cut out. */
  lemma {:induction false} StripFirstHashAt(s: string, i: nat)
    requires i < |s| && s[i] == '#' && '#' !in s[..i]
    ensures StripFirstHash(s) == s[..i] + s[i + 1..]
    decreases i
  {
    if i > 0 {
      assert s[0] == s[..i][0];
      assert s[1..][..i - 1] == s[1..i];
      StripFirstHashAt(s[1..], i - 1);
      assert s[..i] == [s[0]] + s[1..][..i - 1];
      assert s[i + 1..] == s[1..][i..];
    }
  }

  /** A tag written with a leading `#` loses exactly that `#`. */
  lemma StripLeadingHash(t: string)
    ensures StripFirstHash("#" + t) == t
  {
    assert ("#" + t)[0] == '#' && ("#" + t)[1..] == t;
  }
}

=== FILE: warlog.dfy ===
/** The war-log section of the clan detail view (public/script.js,
    `renderClanWarlog`): up to five past wars, each shown as a card with the
    viewed clan on the home side, both sides' stars, the result icon and the
    war size estimated from the stars. */
module Warlog {
  import opened Wrappers
  import opened Text
  import opened Routes

  /** One side of a past war. A missing or empty `tag` is the empty string. */
  datatype Side = Side(tag: string, name: string, stars: nat)

  /** A war-log item: `clan` is the side the log belongs to; either side may
      be missing. `result` is the upstream string ("win", "lose", ...). */
  datatype WarItem = WarItem(clan: Option<Side>, opponent: Option<Side>, result: string)

  /** The JSON the browser received: `private` is truthy, and `items` is
      `None` when absent or not an array. */
  datatype WarlogData = WarlogData(isPrivate: bool, items: Option<seq<WarItem>>)

  datatype Icon = Trophy | Skull | Handshake

  datatype Card = Card(homeName: string, awayName: string,
                       homeStars: nat, awayStars: nat, warSize: nat,
                       icon: Icon, homeHighlighted: bool, awayHighlighted: bool)

  /** "Kriegslog Privat", the cards, "Kein Kriegslog gefunden." or "Fehler
      beim Laden des Kriegslogs." */
  datatype View = PrivateView | Cards(cards: seq<Card>) | NoLog | LoadError

  const MaxCards: nat := 5

  function Max(a: nat, b: nat): (m: nat)
    ensures m >= a && m >= b && (m == a || m == b)
  {
    if a >= b then a else b
  }

  /** `Math.ceil(Math.max(h, a) / 3 / 5) * 5`, i.e. 5 * ceil(max / 15),
      computed exactly on naturals. */
  function WarSize(h: nat, a: nat): (r: nat)
    ensures r % 5 == 0
    ensures 3 * r >= Max(h, a)
    ensures 3 * r < Max(h, a) + 15
    ensures Max(h, a) == 0 <==> r == 0
  {
    ((Max(h, a) + 14) / 15) * 5
  }

  /** The war size is the least multiple of 5 at least a third of the higher
      star count. */
  lemma WarSizeLeast(h: nat, a: nat, w: nat)
    requires w % 5 == 0 && 3 * w >= Max(h, a)
    ensures WarSize(h, a) <= w
  {
    var m := Max(h, a);
    var q := (m + 14) / 15;
    var p := w / 5;
    assert w == 5 * p;
    assert 15 * p >= m;
    assert 15 * q <= m + 14;
    assert p >= q;
  }

  /** A full 15-versus-15 war, a partly played one and an empty log entry. */
  lemma WarSizeExamples()
    ensures WarSize(45, 30) == 15
    ensures WarSize(20, 10) == 10
    ensures WarSize(0, 0) == 0
  {
    assert Max(45, 30) == 45 && (45 + 14) / 15 == 3;
    assert Max(20, 10) == 20 && (20 + 14) / 15 == 2;
  }

  /** `item.clan && item.clan.tag && item.clan.tag.replace("#", "") === clanTag.replace("#", "")` */
  predicate IsHome(item: WarItem, clanTag: string) {
    item.clan.Some? && item.clan.value.tag != ""
    && StripFirstHash(item.clan.value.tag) == StripFirstHash(clanTag)
  }

  /** (home, away): the viewed clan's side first when the item's `clan` is
      it, otherwise the two sides swapped. */
  function HomeAway(item: WarItem, clanTag: string): (r: (Option<Side>, Option<Side>))
    ensures multiset{r.0, r.1} == multiset{item.clan, item.opponent}
    ensures IsHome(item, clanTag) ==> r == (item.clan, item.opponent)
    ensures !IsHome(item, clanTag) ==> r == (item.opponent, item.clan)
  {
    if IsHome(item, clanTag) then (item.clan, item.opponent) else (item.opponent, item.clan)
  }

  function NameOf(s: Option<Side>): string {
    if s.Some? then s.value.name else "-"
  }

  function StarsOf(s: Option<Side>): nat {
    if s.Some? then s.value.stars else 0
  }

  function IconOf(result: string): (i: Icon)
    ensures i == Trophy <==> result == "win"
    ensures i == Skull <==> result == "lose"
    ensures i == Handshake <==> result != "win" && result != "lose"
  {
    if result == "win" then Trophy else if result == "lose" then Skull else Handshake
  }

  /** The card of one item, as seen from `clanTag`. */
  function CardOf(item: WarItem, clanTag: string): (c: Card)
    ensures IsHome(item, clanTag) ==>
      c.homeName == NameOf(item.clan) && c.awayName == NameOf(item.opponent)
      && c.homeStars == StarsOf(item.clan) && c.awayStars == StarsOf(item.opponent)
    ensures !IsHome(item, clanTag) ==>
      c.homeName == NameOf(item.opponent) && c.awayName == NameOf(item.clan)
      && c.homeStars == StarsOf(item.opponent) && c.awayStars == StarsOf(item.clan)
    ensures c.warSize == WarSize(StarsOf(item.clan), StarsOf(item.opponent))
    ensures c.icon == IconOf(item.result)
    ensures c.homeHighlighted <==> item.result == "win"
    ensures c.awayHighlighted <==> item.result == "lose"
  {
    var (home, away) := HomeAway(item, clanTag);
    Card(NameOf(home), NameOf(away), StarsOf(home), StarsOf(away),
         WarSize(StarsOf(home), StarsOf(away)), IconOf(item.result),
         item.result == "win", item.result == "lose")
  }

  /** What `renderClanWarlog(clanTag)` shows for the data `getClanWarlog`
      delivered, or for a failure to deliver it. */
  function WarlogView(data: Result<WarlogData, string>, clanTag: string): (v: View)
    ensures v == LoadError <==> data.Failure?
    ensures v == PrivateView <==> data.Success? && data.value.isPrivate
    ensures v.Cards? <==> data.Success? && !data.value.isPrivate
                          && data.value.items.Some? && |data.value.items.value| > 0
    ensures v.Cards? ==>
      var items := data.value.items.value;
      && |v.cards| == (if |items| < MaxCards then |items| else MaxCards)
      && forall i :: 0 <= i < |v.cards| ==> v.cards[i] == CardOf(items[i], clanTag)
  {
    match data
    case Failure(_) => LoadError
    case Success(d) =>
      if d.isPrivate then PrivateView
      else if d.items.Some? && |d.items.value| > 0 then
        var items := d.items.value;
        var shown := if |items| < MaxCards then items else items[..MaxCards];
        Cards(seq(|shown|, i requires 0 <= i < |shown| => CardOf(shown[i], clanTag)))
      else NoLog
  }

  /** Which side is home does not change the war size. */
  lemma WarSizeSameForBothSides(item: WarItem, t1: string, t2: string)
    ensures CardOf(item, t1).warSize == CardOf(item, t2).warSize
    ensures WarSize(StarsOf(item.clan), StarsOf(item.opponent)) == WarSize(StarsOf(item.opponent), StarsOf(item.clan))
  {
  }

  /** Viewing the log of the item's own clan puts that clan at home; a tag
      written with or without `#` selects the same side. */
  lemma OwnClanAtHome(item: WarItem, s: Side, clanTag: string)
    requires item.clan == Some(s) && s.tag == "#" + clanTag && '#' !in clanTag
    ensures CardOf(item, clanTag).homeName == s.name
    ensures CardOf(item, clanTag).homeStars == s.stars
    ensures CardOf(item, "#" + clanTag) == CardOf(item, clanTag)
  {
    StripLeadingHash(clanTag);
    assert s.tag != "" by { assert s.tag[0] == '#'; }
    assert IsHome(item, clanTag) && IsHome(item, "#" + clanTag);
  }

  /** The body the browser parses from a warlog response: `{ private: true }`
      for a private log, the error object (no `private`, no `items`) for an
      error reply. */
  function BodyOf(r: Response<WarlogData>): WarlogData {
    match r
    case Json200(d) => d
    case PrivateLog => WarlogData(true, None)
    case ErrorReply(_, _, _) => WarlogData(false, None)
  }

  /** End to end from the server's upstream call: a 403 shows "Kriegslog
      Privat", any other failure "Kein Kriegslog gefunden." (the error body is
      parsed like a log), and a log is shown as it came. */
  lemma ServerToView(fetched: Result<WarlogData, UpstreamError>, clanTag: string)
    ensures fetched.Failure? && HasStatus(fetched.error, 403) ==>
              WarlogView(Success(BodyOf(WarlogRoute(fetched))), clanTag) == PrivateView
    ensures fetched.Failure? && !HasStatus(fetched.error, 403) ==>
              WarlogView(Success(BodyOf(WarlogRoute(fetched))), clanTag) == NoLog
    ensures fetched.Success? ==>
              WarlogView(Success(BodyOf(WarlogRoute(fetched))), clanTag) == WarlogView(Success(fetched.value), clanTag)
  {
  }
}

=== FILE: wrappers.dfy ===
/** Optional values and results with an error, used where the dashboard's
    JavaScript has `undefined`/`null` or a rejected promise. */
module Wrappers {

  datatype Option<+T> = None | Some(value: T) {
    /** The value, or `default` when absent (JavaScript's `x || default`
        for values whose only falsy form is absence). */
    function GetOr(default: T): T {
      match this
      case Some(v) => v
      case None => default
    }
  }

  datatype Result<+T, +E> = Success(value: T) | Failure(error: E)
}
